=== FILE: README.md ===
# zcm Julia code generator: the codec plan, the fingerprint and the wire format

This project models the core of zcm's Julia backend (`gen/emit/EmitJulia.cpp`).
For each struct of a parsed message schema, the backend writes a Julia type
holding the following:

- a constructor that gives every member a zero value and every constant its
  value;
- a memoised structural fingerprint, `_get_hash_recursive` / `getHash`;
- an encoder, `_encode_one` / `encode`;
- a decoder, `_decode_one` / `decode`;
- the `include` lines of the structs it refers to.

The model does not produce Julia text. Instead it builds what each emitter
decides: the procedures become data (plans of loops, bulk operations and
single reads/writes), and what those procedures do at run time is given
meaning on byte sequences. The properties are then proved over that meaning.

The modules are:

- `Schema` (schema.dfy): the nine zcm primitives, the type-name classifier,
  member widths, dimensions (constant size or sibling name), members,
  constants, structs, and a schema as a map from full name to struct.
- `Names` (names.dfy): `mapTypeName` and `dotsToSlashes`.
- `Dependencies` (dependencies.dfy): `emitDependencies`. It is a method that
  collects the dependency set member by member and then writes one include
  line per dependency.
- `Initializer` (initializer.dfy): `emitMemberInitializer` as a recursive
  function that returns an initialiser tree, and the constant initialisers.
- `Hashing` (fingerprint.dfy): the value the hash expression emitted at
  lines 265-295 denotes when nothing is memoised yet. It is a function over
  the schema and the ancestor list. It includes 64-bit wrap-around addition
  and the one-bit rotation. Two limits (see "## Left out"):
  - the generated term for a composite member with dimensions is a field
    access on an Array, which Julia rejects, and the model gives it its
    evident meaning;
  - the generated constructors cannot build an instance of a schema with a
    reference cycle, so the cycle rule is reached at run time only through a
    short-name collision (finding 1).
- `HashCache` (hashcache.dfy): the memoised hash.
  - A class `Memo` holds a cache field. Its `GetHashRecursive` is the
    generated method, with its loop over the members.
  - These are proved against a reference function `CachedHash` that threads
    the cache.
  - The shared cache gives the per-instance results of the generated code
    on schemas without reference cycles whose structs have distinct short
    names. On a short-name collision it can differ (see "## Left out").
- `Plan` (plan.dfy): the encode and decode plans that `emitEncodeOne` /
  `emitDecodeOne` write member by member (the per-type rules, the loops over
  dimensions, and the bulk operations). They are written as methods with
  loops, proved against recursive plan functions.
- `Bytes` (bytes.dfy): big- and little-endian byte images, Julia's
  `hton`/`ntoh` on either host, and two's complement.
- `Wire` (wire.dfy): what a plan does at run time.
  - Encoding turns a message value into bytes.
  - Decoding turns bytes back into a value, with explicit errors: short
    input, fingerprint mismatch, negative extent, shape mismatch.
  - `encode` / `decode` frame the body with the 8-byte fingerprint.
- `RoundTrip` (roundtrip.dfy): `decode(encode(v))` for every well-typed
  message, on either host. It also covers the fingerprint gate and the wire
  form of each scalar. A member with two or more dimensions is given its
  evident meaning, an array of arrays; the generated constructor and encoder
  fail on such members (see "## Left out").
- `BulkEncode` (bulk.dfy): the generated in-place bulk write of primitive
  arrays, as written and as corrected.
- `TextTerminator` (terminator.dfy): the string terminator as the generated
  code writes it (an `Int`, eight bytes on a 64-bit host), and the member it
  makes the decoder misread.

In three places the generated code behaves differently from what its
purpose suggests. This model follows the code:

- **Decoded strings keep the terminator.** The generated decoder reads all
  `length + 1` bytes, terminator included, into the string. So a decoded
  string carries its terminator byte, and the round trip gives back
  `Terminated(v)`. Without strings the round trip is exact. (The round-trip
  lemmas use the one-byte terminator the decoder expects; the wider one the
  code writes is finding 3.)
- **The cycle check compares short names, not full names.** This is
  finding 1 below.
- **Member order reaches the fingerprint only through the base hash.** The
  sum of the children does not depend on member order
  (`Hashing.ChildSumOrderInsensitive`).

## Model

| member | source | states |
|---|---|---|
| Schema.PrimitiveNameRoundTrip | gen/emit/EmitJulia.cpp:27-35 | each of the nine zcm primitive type names is recognised as its own primitive, so the type-name dispatch covers exactly those nine names |
| Names.MapTypeName | gen/emit/EmitJulia.cpp:25-39 | the nine-way dispatch from a zcm primitive name to its Julia type name, with every other name passed through |
| Names.MapTypeNameRewritesExactlyPrimitives | gen/emit/EmitJulia.cpp:25-39 | mapTypeName changes a type name if and only if it is one of the nine primitive names, and leaves every other name (a struct's) as it is |
| Names.MapTypeNameInjectiveOnPrimitives | gen/emit/EmitJulia.cpp:27-35 | distinct primitive names get distinct Julia type names |
| Names.JuliaNameDiffers | gen/emit/EmitJulia.cpp:27-35 | no primitive's Julia name equals its zcm name |
| Names.DotsToSlashes | gen/emit/EmitJulia.cpp:19-22 | same length as the input; every '.' becomes '/' and every other character stays in its position |
| Names.DotsToSlashesNoDots | gen/emit/EmitJulia.cpp:19-22 | no '.' remains in a rewritten path |
| Names.DotsToSlashesIdempotent | gen/emit/EmitJulia.cpp:19-22 | rewriting an already rewritten path changes nothing |
| Dependencies.EmitDependencies | gen/emit/EmitJulia.cpp:92-109 | a type is in the include list if and only if some member has it as its type, it is not primitive, and it is not the struct's own full name; no type is listed twice; one `include("<path>.jl")` line per dependency, with dots turned into slashes, followed by one blank line exactly when the list is not empty |
| Dependencies.IncludeLineInjective | gen/emit/EmitJulia.cpp:104-106 | for type names without '/', distinct dependencies get distinct include lines |
| Dependencies.DependenciesInGraph | gen/emit/EmitJulia.cpp:94-101 | in a closed schema, every dependency is another struct of the schema, so every include names a file the same run generates |
| Dependencies.SelfReferenceIncludesNothing | gen/emit/EmitJulia.cpp:96-100 | a struct whose only composite members are of its own type includes nothing |
| Initializer.MemberInitializer | gen/emit/EmitJulia.cpp:221-257 | emitMemberInitializer at depth d: the leaf zero or `T()` past the last dimension, `Array{T,k}(0,…,0)` at a variable dimension, a comprehension over the size at a constant one |
| Initializer.InitializerShape | gen/emit/EmitJulia.cpp:221-257 | the default value at depth d has one extent per remaining dimension: the declared size while every dimension from d on is constant, and 0 from the first variable dimension on |
| Initializer.InitializerElement | gen/emit/EmitJulia.cpp:225-252 | the innermost element is the member type's zero literal, or `T()` for a composite, exactly when no remaining dimension is variable; otherwise the recursion stops at an empty `Array{MappedType,k}` whose rank k is the number of dimensions left at the first variable one |
| Initializer.ComprehensionIndices | gen/emit/EmitJulia.cpp:253-256 | the nested comprehensions use the loop variables dim d, dim d+1, … in order, one per constant dimension before the first variable one, so no loop variable is reused |
| Initializer.ConstantInitializer | gen/emit/EmitJulia.cpp:202-205 | a constant is bit-reinterpreted exactly when it is fixed-point, into its mapped Julia type from its literal; otherwise its literal is used as written |
| Initializer.ConstantBlock | gen/emit/EmitJulia.cpp:198-206 | one initialiser per constant, in declaration order, each declared with the constant's mapped Julia type |
| Hashing.Add | gen/emit/EmitJulia.cpp:276-290 | the UInt64 sum of base hash and children wraps modulo 2^64 |
| Hashing.Rotl1IsShiftExpression | gen/emit/EmitJulia.cpp:293 | `(hash << 1) + ((hash >>> 63) & 0x01)` on a UInt64 is 2·h mod 2^64 plus the top bit, which is a circular left rotation by one |
| Hashing.Rotl1Inverse | gen/emit/EmitJulia.cpp:293 | the rotation has a two-sided inverse, the right rotation, so it is a bijection on 64-bit words |
| Hashing.Rotl1Injective | gen/emit/EmitJulia.cpp:293 | distinct sums before the rotation give distinct fingerprints |
| Hashing.Fingerprint | gen/emit/EmitJulia.cpp:267-295 | the value of the emitted hash expression with nothing memoised: 0 for a struct whose cycle key is on the ancestor list, otherwise rotl1 of the base hash plus the children's sum, the children hashed under the list extended by the struct's key |
| Hashing.ChildSum | gen/emit/EmitJulia.cpp:277-290 | the wrapping sum of one fingerprint per composite member, in member order; primitive members add nothing |
| Hashing.ChildSumIgnoresDims | gen/emit/EmitJulia.cpp:277-290 | the children's contribution is one term per composite member and depends only on the members' type names, whatever their dimensions |
| Hashing.ChildSumAppend | gen/emit/EmitJulia.cpp:277-290 | the child sum over two runs of members is the wrapping sum of the two child sums |
| Hashing.ChildSumOrderInsensitive | gen/emit/EmitJulia.cpp:277-290 | reordering members leaves the child sum unchanged; member order reaches the fingerprint only through the base hash |
| Hashing.ChildSumOfAncestors | gen/emit/EmitJulia.cpp:269-290 | members whose types are all on the ancestor list contribute 0 |
| Hashing.SelfReferenceFingerprint | gen/emit/EmitJulia.cpp:269-293 | a struct whose composite members all have its own type has the finite fingerprint rotl1(base hash); this is the value of the hash expression, as no instance of such a struct can be constructed (the default `T()` at 242 recurses without end) |
| Hashing.MutualReferenceFingerprint | gen/emit/EmitJulia.cpp:269-293 | two structs that each hold one member of the other's type: A's fingerprint is rotl1(base A + rotl1(base B)), because the cycle is cut when it returns to A; as for a self reference, this is the value of the hash expression, not of a run the generated constructors can reach |
| Hashing.BaseIrrelevantBelow | gen/emit/EmitJulia.cpp:269-293 | changing a struct's base hash leaves unchanged every fingerprint computed where that struct is an ancestor |
| Hashing.BaseHashSensitive | gen/emit/EmitJulia.cpp:276-293 | any change to a struct's base hash (`ls.hash`) changes its fingerprint |
| Hashing.ShortNameCollisionHidesDependency | gen/emit/EmitJulia.cpp:269-272 | as written, a struct holding one member of another package's struct with the same short name gets the fingerprint of a struct with no composite members, rotl1(base), whatever that dependency's shape |
| Hashing.FullNameKeepsDependency | gen/emit/EmitJulia.cpp:269-272 | corrected (compare full names): the same dependency contributes its own fingerprint, rotl1(base + rotl1(dependency base)) |
| Hashing.ShortNameCollisionWitness | gen/emit/EmitJulia.cpp:269-272 | for the concrete schemas a.X ∋ b.X, changing b.X's base hash from 2 to 3 leaves a.X's fingerprint unchanged as written, and changes it under the full-name check |
| HashCache.CachedHash | gen/emit/EmitJulia.cpp:265-296 | the memoised recursion with one cache shared by all instances: the value `_get_hash_recursive(parents)` returns and the cache it leaves, started from a given cache; it gives the generated per-instance values on schemas without cycles whose structs have distinct cycle keys (see CachedHashTransparent), not on short-name collisions |
| HashCache.Memo.GetHashRecursive | gen/emit/EmitJulia.cpp:267-296 | the generated method, with its loop over members and its recursive calls, over one cache shared by all instances, returns the value and leaves the cache that `CachedHash` gives from the old cache; a stored non-zero `_hash` comes back with the cache unchanged (268); otherwise a struct whose key is on the ancestor list gives 0 with the cache unchanged (269); otherwise the computed value is stored (294); and no stored non-zero value is ever overwritten; on short-name collisions the shared cache can return a value no per-instance `_hash` gives (SharedCacheDiffersOnCollision) |
| HashCache.CachedHashKeeps | gen/emit/EmitJulia.cpp:268-294 | the recursion, including every nested call, only adds entries or fills ones still 0; a stored non-zero fingerprint is never overwritten |
| HashCache.SharedCacheDiffersOnCollision | gen/emit/EmitJulia.cpp:265-294 | for `Z { b.X m1; a.X m2 }` with `a.X { b.X p }` (bases 3, 2, 1) and the short-name check, the fingerprint with every instance's `_hash` starting at 0 is 18, while one shared cache returns b.X's stored 2 before the cycle check and gives 26 |
| HashCache.ShortAndFullAgree | gen/emit/EmitJulia.cpp:269-272 | when no two structs share a short name, the cycle check by short name (as written) and by full name (corrected) give the same fingerprint for every struct and matching ancestor lists; so the wire gate `Wire.MessageHash` equals the generated `getHash()` on such schemas |
| HashCache.Memo.GetHash | gen/emit/EmitJulia.cpp:298-300 | `getHash()` is the recursion started with an empty ancestor list |
| HashCache.ParentsIrrelevant | gen/emit/EmitJulia.cpp:269 | on a schema without reference cycles the ancestor list never cuts anything, so a fingerprint does not depend on it |
| HashCache.CachedHashTransparent | gen/emit/EmitJulia.cpp:265-295 | on a schema without reference cycles (a rank that decreases along every composite member) whose structs have distinct cycle keys (with the short-name key: no two structs share a short name), starting from a cache whose entries are all true fingerprints, the memoised recursion returns the fingerprint computed from scratch and keeps the cache sound |
| HashCache.HashAll | gen/emit/EmitJulia.cpp:298-300 | a usage lemma for `getHash`, not a modelled operation: on a schema without reference cycles whose structs have distinct cycle keys, hashing a sequence of its structs through one memo, in any order, gives each struct's from-scratch fingerprint |
| HashCache.CyclicMemoDependsOnOrder | gen/emit/EmitJulia.cpp:265-295 | with a reference cycle A ⇄ B the memo is not transparent: hashing A first stores 2 for B, computed with A on the ancestor list, while B's fingerprint from scratch is 6; the same caveat on cyclic schemas applies |
| Plan.EncodeRule | gen/emit/EmitJulia.cpp:304-322 | emitEncodeSingleMember's case analysis: the text rule for string, a raw write for boolean, hton for the other primitives, the member struct's `_encode_one` otherwise |
| Plan.DecodeRule | gen/emit/EmitJulia.cpp:407-432 | emitDecodeSingleMember's case analysis: the text rule for string, a raw read for byte, boolean and int8, ntoh for the other primitives, the member struct's `_decode_one` otherwise |
| Plan.ListWrite | gen/emit/EmitJulia.cpp:324-343 | emitEncodeListMember: one bulk write of the first len elements, through hton except for booleans, len a literal or `self.<sibling>` |
| Plan.ListRead | gen/emit/EmitJulia.cpp:434-471 | emitDecodeListMember: one read of len × width bytes, through ntoh unless one byte wide |
| Plan.EncodeMember | gen/emit/EmitJulia.cpp:354-391 | a member's encode plan: a single write for a scalar; otherwise nested loops over all dimensions but the last, then a bulk write of the innermost array for a primitive non-string type, or a loop around a single write |
| Plan.DecodeMember | gen/emit/EmitJulia.cpp:481-541 | a member's decode plan, in the same shape as its encode plan |
| Plan.EncodeDecodeRulesAgree | gen/emit/EmitJulia.cpp:304-432 | the encoder's and decoder's per-type rules coincide except for byte and int8, which the encoder passes through hton and the decoder reads raw; both are one byte wide |
| Plan.SingleByteIsWidthOne | gen/emit/EmitJulia.cpp:420-428 | the types the decoder reads without ntoh (byte, boolean, int8) are exactly the one-byte primitives |
| Plan.EmitEncodeMember | gen/emit/EmitJulia.cpp:356-391 | the member's encode plan built by the loop over dimensions (one loop header per outer dimension while the accessor grows by one index, then the loops closed from the inside out) is the plan `EncodeMember` specifies |
| Plan.EmitDecodeMember | gen/emit/EmitJulia.cpp:482-541 | the member's decode plan built by the loop over dimensions is the plan `DecodeMember` specifies |
| Plan.EmitEncodeOne | gen/emit/EmitJulia.cpp:345-394 | `_encode_one` is one plan per member, in declaration order; an empty struct gets an empty body |
| Plan.EmitDecodeOne | gen/emit/EmitJulia.cpp:473-549 | `_decode_one` is one plan per member, in declaration order |
| Plan.EncodeMemberShape | gen/emit/EmitJulia.cpp:356-391 | a scalar gets one write; an array has one bound per dimension in order, each a literal or `self.<sibling>`; loop k binds index k and the leaf indexes with exactly the enclosing indices; the innermost level is a bulk write for primitive non-string elements and a loop around a single write otherwise |
| Plan.DecodeMemberShape | gen/emit/EmitJulia.cpp:482-541 | the decode plan mirrors the encode plan's loop bounds; a bulk member's innermost read takes size × width bytes for a constant dimension and `self.<sibling>` × width for a variable one |
| Bytes.WriteHton | gen/emit/EmitJulia.cpp:315-318 | `write(buf, hton(x))` emits x in network order on either host |
| Bytes.ReadNtoh | gen/emit/EmitJulia.cpp:424-428 | `ntoh(reinterpret(T, read(buf, w))[1])` is the network-order value of the bytes read, on either host |
| Bytes.HtonNtohRoundTrip | gen/emit/EmitJulia.cpp:315-428 | a value written with hton and read back with ntoh at the same width is unchanged |
| Bytes.SingleByteNoSwap | gen/emit/EmitJulia.cpp:420-423 | for a one-byte value hton is the identity, so the raw read of byte, int8 and boolean sees what the encoder wrote |
| Wire.EncodeLeaf | gen/emit/EmitJulia.cpp:304-322 | what a single write emits: the memory image of the value, through hton where the rule says so; a string as its length plus one through hton, its bytes and a one-byte terminator (the corrected terminator of finding 3) |
| Wire.DecodeLeaf | gen/emit/EmitJulia.cpp:407-432 | what a single read consumes and returns: w bytes reinterpreted, through ntoh where the rule says so; a string as a 4-byte length through ntoh, then that many bytes kept whole, terminator included |
| Wire.Exec | gen/emit/EmitJulia.cpp:345-394 | running an encode plan: each loop runs over the first `bound` elements, a bound read from a sibling as a signed integer |
| Wire.Run | gen/emit/EmitJulia.cpp:473-549 | running a decode plan: loops read bound-many elements, a bulk read takes its byte count and splits it into words |
| Wire.EncodeMessage | gen/emit/EmitJulia.cpp:396-405 | `encode()`: the fingerprint through hton, then the body |
| Wire.DecodeMessage | gen/emit/EmitJulia.cpp:551-561 | `decode(data)`: the leading 8 bytes through ntoh are compared with the fingerprint before the body is decoded |
| RoundTrip.ScalarWireFormat | gen/emit/EmitJulia.cpp:309-318 | on either host, a number goes on the wire in network order at its width; a string goes as its length plus one in four network-order bytes, then the bytes, then one zero byte (the corrected terminator, finding 3) |
| RoundTrip.ScalarRoundTrip | gen/emit/EmitJulia.cpp:304-432 | a primitive, string or nested struct written by the single-member rule is read back by the decoder's rule, with the rest of the input left untouched (for strings, with the corrected terminator of finding 3) |
| RoundTrip.BulkRoundTrip | gen/emit/EmitJulia.cpp:324-471 | a bulk write of n w-byte elements takes n·w bytes, and reading them back in one block gives the same elements |
| RoundTrip.ExtentOnDecodedPrefix | gen/emit/EmitJulia.cpp:359-365 | a loop bound naming an earlier sibling has the same value for the encoder (all members) and for the decoder (the members decoded so far) |
| RoundTrip.RecordRoundTrip | gen/emit/EmitJulia.cpp:345-549 | `_decode_one` reads back what `_encode_one` wrote for every well-typed instance, member by member, leaving the rest of the input untouched (with the corrected terminator of finding 3) |
| RoundTrip.MessageRoundTrip | gen/emit/EmitJulia.cpp:396-561 | on either host, `decode(encode(v))` succeeds and gives v back with every string carrying its terminator byte, whatever follows the message (with the corrected terminator of finding 3) |
| RoundTrip.MessageRoundTripWithoutText | gen/emit/EmitJulia.cpp:396-561 | without strings, `decode(encode(v)) == v` |
| RoundTrip.EncodeFrame | gen/emit/EmitJulia.cpp:398-402 | `encode` puts the 8-byte fingerprint in network order in front of the body |
| RoundTrip.ShortMessageRejected | gen/emit/EmitJulia.cpp:555 | a message shorter than 8 bytes is refused as a buffer underrun |
| RoundTrip.HashMismatchStopsDecode | gen/emit/EmitJulia.cpp:555-558 | when the leading 8 bytes in network order are not the struct's fingerprint, decode raises "Decode error" without reading the body |
| RoundTrip.ForeignMessageRejected | gen/emit/EmitJulia.cpp:396-558 | an encoded message of one struct, decoded as a struct with a different fingerprint, is refused |
| BulkEncode.BulkEncodeInPlace | gen/emit/EmitJulia.cpp:331-338 | the generated bulk write emits the elements in network order, and leaves the message's own array swapped: hton applied to the first len elements (except for booleans) and nothing else changed |
| BulkEncode.EncodeTwiceInPlace | gen/emit/EmitJulia.cpp:331-338 | encoding the same message twice: the first output is in network order, the second is each element's host memory image, and the array ends as it started |
| BulkEncode.SecondEncodeWrongOnLittleEndian | gen/emit/EmitJulia.cpp:331-338 | on a little-endian host the second encode of a multi-byte array whose first element is a non-zero value below 256 differs from network order |
| BulkEncode.ImageOnBigEndian | gen/emit/EmitJulia.cpp:331-338 | on a big-endian host the host image is network order, so the repeated encode is harmless there |
| BulkEncode.BulkEncodeCopy | gen/emit/EmitJulia.cpp:331-338 | corrected: swapping into a scratch copy emits network order and does not modify the message |
| BulkEncode.WireBulkIsNetwork | gen/emit/EmitJulia.cpp:331-338 | the wire model's bulk write is the corrected one: the elements in network order |
| TextTerminator.EncodeLeafAsWritten | gen/emit/EmitJulia.cpp:309-312 | the single write as written: a string's terminator is `write(buf, 0)`, Julia's `Int` zero, eight bytes on a 64-bit host; every other rule as in `Wire.EncodeLeaf` |
| TextTerminator.WideTerminatorLeftInInput | gen/emit/EmitJulia.cpp:310-312 | as written, for every string and every terminator width w ≥ 1, the generated read (417-419) returns the string with one zero byte and leaves the other w − 1 zero bytes at the head of the input |
| TextTerminator.WideTerminatorMisreadsNextMember | gen/emit/EmitJulia.cpp:310-312 | for `struct S { string s; int32_t x; }` with s = "ab", x = 5, encoded as written, `_decode_one` reads s = "ab" plus terminator and x = 0, on either host |

## Left out

- Text rendering is not modelled. This covers indentation, the banner, comments, the accessor strings as text, and Julia keywords (lines 49-90 and 111-190, plus every `emit` call). The plans are data.
  - The emitted text is not claimed to be well-formed Julia.
  - The per-element encode path closes its loops twice (lines 385-386 and again at 388-389).
  - The decode array path emits Python syntax (`range(...):`, `.append`, lines 495-541).
  - The model gives both paths the meaning their structure evidently intends: nested loops that write or read one element per iteration, and a bulk read of the innermost array.
- The driver and options are not modelled: option setup (lines 14-17), the output path, `needsGeneration`, directory creation and file output (lines 575-601). They are I/O.
- ZCMGen is not part of this model:
  - the schema loader's base hash `ls.hash` is a field of each struct;
  - `isPrimitiveType` and `getPrimitiveTypeSize` are the closed `Primitive` catalogue, with the widths 1/1/1/2/4/8/4/8;
  - `isLegalConstType` (asserted at line 199) is not checked.
- A constant dimension's size is held as a `nat`. The decimal text and its `atoi` are not modelled.
- Floating-point values are 32- and 64-bit patterns, with no numeric meaning. A fixed-point constant's `reinterpret` is modelled only as the choice of initialiser.
- RoundTrip.MessageRoundTrip: strings come back with their terminator byte, as the generated decoder reads `length + 1` bytes into the string. The round trip holds for the one-byte terminator the decoder expects. The code as written ends a string with `write(buf, 0)`, an eight-byte `Int` on a 64-bit host (four on a 32-bit one), and with it a string followed by another member does not read back (finding 3).
- RoundTrip.RecordRoundTrip: holds with the corrected one-byte terminator. As written, a string followed by another member does not read back (finding 3, `TextTerminator.WideTerminatorMisreadsNextMember`).
- RoundTrip.ScalarRoundTrip: holds with the corrected one-byte terminator. As written, a string leaves the terminator's other zero bytes in the input (finding 3, `TextTerminator.WideTerminatorLeftInInput`).
- RoundTrip.ScalarWireFormat: states the corrected one-byte terminator, not the `Int`-wide one `write(buf, 0)` writes (finding 3, `TextTerminator.EncodeLeafAsWritten`). Its length prefix counts bytes (see `Wire.EncodeLeaf`).
- Wire.EncodeLeaf: a string ends with one zero byte, the terminator the decoder expects. The code as written ends it with `write(buf, 0)`, an eight-byte `Int` on a 64-bit host (four on a 32-bit one), which is finding 3 (`TextTerminator.EncodeLeafAsWritten`). Strings are also byte strings with one byte per character, as for ASCII text. Julia's `length` at line 310 counts characters, so for non-ASCII text the generated prefix is the character count plus one, smaller than the byte count plus one the model writes.
- Wire.DecodeRecord: nested structs are decoded with a fuel bound on nesting depth. Running out of it is an explicit error, and the round-trip lemmas assume the fuel covers the value's nesting.
- Wire.DecodeLeaf: a read past the end of the buffer is a `BufferUnderrun` error. Julia's `read(buf, n)` returns the bytes that are left, with no error. A short string body (line 419) becomes a shorter string. A short scalar read fails only when the generated code reinterprets the partial word or indexes `[1]` of an empty one.
- Wire.Run: a bulk read past the end of the buffer is a `BufferUnderrun` error. In the generated code (lines 458 and 463) a short read whose byte count is a multiple of the element width becomes a shorter array, with no error.
- Wire.Extent: a negative sibling value used as a loop bound or bulk length is a `BadExtent` error. In the generated code the range `1:n` is then empty, so the encoder silently emits nothing for that member.
- Hashing.ChildSum: a composite member with dimensions contributes its element type's fingerprint, which is the evident intent. The generated term `self.<member>._get_hash_recursive(newparents)` (lines 282-287) is a field access on an Array, which Julia rejects.
- Hashing.ChildSumIgnoresDims: states the evident intent for array members, as for `Hashing.ChildSum`. The generated code fails on them instead.
- Hashing.Fingerprint: on a schema with a reference cycle it is the value of the hash expression only. A composite member's default is `T()` (line 242), so the constructor of a scalar self or mutual reference recurses without end, and an array reference hits the previous line. The generated code therefore reaches the cycle rule at line 269 only through a short-name collision (finding 1).
- HashCache.Memo: the cache is one map keyed by full name, shared by every instance at run time. The generated code keeps `_hash` in each instance's closure (lines 265, 268, 294), so two instances of one struct do not share it. The two give the same values on schemas without reference cycles whose structs have distinct short names (`HashCache.CachedHashTransparent` with `KeysInjective`). On a short-name collision they differ: for `Z { b.X m1; a.X m2 }` with `a.X { b.X p }` and bases 3, 2, 1, a fresh `z.getHash()` gives 18 and the shared cache gives 26 (`HashCache.SharedCacheDiffersOnCollision`).
- Wire.MessageHash: the wire model uses the corrected fingerprint (cycle check by full name, finding 1). On schemas where no two structs share a short name, the two checks give the same fingerprint (`HashCache.ShortAndFullAgree`).
- Wire.BulkBytes: the wire model uses the corrected bulk write (finding 2). It equals the in-place one for a message's first encode.
- BulkEncode.BulkEncodeInPlace: requires `len <= a.Length`. A shorter array is a bounds error in the generated code and is not modelled.
- Dependencies.EmitDependencies: the dependency set is an `unordered_set`, so the order of the include lines is unspecified. The model lists the dependencies in first-use order, and its contract does not depend on that order.
- The field type declarations in the type header (lines 111-190), other than the constant block, are text rendering.
- Initializer.MemberInitializer, Wire.Exec, RoundTrip.RecordRoundTrip and RoundTrip.MessageRoundTrip: a member with two or more dimensions is given its evident meaning, nested arrays, as a nested `List` value. The code as written fails on such members:
  - line 140 declares the field as `Array{T,k}`;
  - the constructor (lines 183-186 with 254-256) assigns it a comprehension of comprehensions, a Vector of Vectors, which Julia cannot convert to `Array{T,k}`, so the constructor fails whenever the first two dimensions are constant;
  - the encoder (lines 355-362 with 335) indexes it as `self.m[i0][i]`, which on an `Array{T,k}` picks a scalar, so `_encode_one` fails for every non-empty member of rank two or more.
  The round-trip lemmas therefore promise nothing about the code as written for these members.
- Wire.Exec: runs a rank-two-or-more member as nested loops over nested lists, the evident meaning; the generated `self.m[i0][i]` indexing fails on the declared `Array{T,k}` (line above).
- RoundTrip.RecordRoundTrip: for members of rank two or more it states the evident nested-array round trip, which the generated constructor and encoder do not reach (line above).
- RoundTrip.MessageRoundTrip: as for RoundTrip.RecordRoundTrip, members of rank two or more round-trip only under the nested-array meaning.
- The composite element decode calls `self.<member>._decode_one(buf)` on the member's current value (line 430). The model decodes a fresh instance of the member's type, which is what the encoder's `_encode_one` round trip needs.

## Findings

| source | as written | input that shows it | evidently intended | confidence | as-written member | corrected member |
|---|---|---|---|---|---|---|
| gen/emit/EmitJulia.cpp:269-272 | the cycle check puts the struct's short name on the ancestor list and tests for it, so a member whose type shares the short name of the struct being hashed counts as a cycle and contributes 0 | struct a.X with one member of type b.X: a.X's fingerprint is rotl1(base of a.X) for every shape of b.X, so changing b.X (base hash 2 to 3) leaves a.X's fingerprint and its wire gate unchanged | compare full names, so b.X contributes its own fingerprint and a change to it reaches a.X | medium; not executed | Hashing.ShortNameCollisionHidesDependency | Hashing.FullNameKeepsDependency |
| gen/emit/EmitJulia.cpp:334-338 | the bulk encode of a primitive array applies hton to the message's own array in place before writing it | on a little-endian host, an int16 array [1] encoded twice: the first encode writes 00 01, the second 01 00 | swap into a copy, so encoding does not modify the message and is repeatable | high; not executed | BulkEncode.SecondEncodeWrongOnLittleEndian | BulkEncode.BulkEncodeCopy |
| gen/emit/EmitJulia.cpp:310-312 | a string ends with `write(buf, 0)`, which writes Julia's `Int` zero (eight bytes on a 64-bit host), while the length prefix counts one terminator byte and the decoder (417-419) reads only that one | `struct S { string s; int32_t x; }` with s = "ab", x = 5: the encoder writes 00 00 00 03, 61 62, eight zero bytes, 00 00 00 05, and the decoder reads x from the terminator's zero bytes as 0 | a one-byte terminator, `write(buf, UInt8(0))`, so the length prefix and the bytes written agree | high; not executed | TextTerminator.WideTerminatorMisreadsNextMember | RoundTrip.TextLeafRoundTrip |

=== FILE: bulk.dfy ===
/** The generated bulk write of a primitive array (the innermost dimension
    of a non-string primitive member), as the emitted Julia runs it: the
    code swaps the member's own array to network order in place, then writes
    the slice. A second encode of the same message swaps it back and writes
    host order. BulkEncodeCopy is the intended behaviour; the wire model
    (Wire.BulkBytes) follows it. */
module BulkEncode {
  import opened Bytes
  import opened Wire

  /** Every element is a w-byte pattern. */
  predicate Fits(xs: seq<nat>, w: nat)
  {
    forall i | 0 <= i < |xs| :: xs[i] < Pow256(w)
  }

  /** hton applied to every element. */
  function SwapAll(xs: seq<nat>, w: nat, host: ByteOrder): (r: seq<nat>)
    requires Fits(xs, w)
    ensures |r| == |xs| && Fits(r, w)
  {
    seq(|xs|, i requires 0 <= i < |xs| => Hton(xs[i], w, host))
  }

  /** The bytes `write(buf, arr[1:len])` emits: each element's memory image. */
  function Image(xs: seq<nat>, w: nat, host: ByteOrder): (r: seq<byte>)
    requires Fits(xs, w)
    ensures |r| == |xs| * w
  {
    if xs == [] then [] else Mem(xs[0], w, host) + Image(xs[1..], w, host)
  }

  /** The intended wire bytes: every element in network order. */
  function Network(xs: seq<nat>, w: nat): (r: seq<byte>)
    requires Fits(xs, w)
    ensures |r| == |xs| * w
  {
    if xs == [] then [] else ToBE(xs[0], w) + Network(xs[1..], w)
  }

  /** hton is its own inverse. */
  lemma HtonInvolutive(x: nat, w: nat, host: ByteOrder)
    requires x < Pow256(w)
    ensures Hton(Hton(x, w, host), w, host) == x
  {
    if host == LittleEndian {
      WriteHton(x, w, host);
      FromToBE(x, w);
    }
  }

  lemma SwapAllInvolutive(xs: seq<nat>, w: nat, host: ByteOrder)
    requires Fits(xs, w)
    ensures SwapAll(SwapAll(xs, w, host), w, host) == xs
  {
    forall i | 0 <= i < |xs| ensures SwapAll(SwapAll(xs, w, host), w, host)[i] == xs[i] {
      HtonInvolutive(xs[i], w, host);
    }
  }

  /** Writing the swapped elements emits them in network order, on either host. */
  lemma {:induction false} ImageOfSwapped(xs: seq<nat>, w: nat, host: ByteOrder)
    requires Fits(xs, w)
    ensures Image(SwapAll(xs, w, host), w, host) == Network(xs, w)
  {
    if xs != [] {
      WriteHton(xs[0], w, host);
      assert SwapAll(xs, w, host)[1..] == SwapAll(xs[1..], w, host);
      ImageOfSwapped(xs[1..], w, host);
    }
  }

  /** One-byte elements (byte, int8, boolean) are in network order unswapped. */
  lemma {:induction false} ImageOfBytes(xs: seq<nat>, host: ByteOrder)
    requires Fits(xs, 1)
    ensures Image(xs, 1, host) == Network(xs, 1)
  {
    if xs != [] {
      SingleByteNoSwap(xs[0], host);
      ImageOfBytes(xs[1..], host);
    }
  }

  /** The generated bulk encode as written: `for i in range(1,len) a[i] =
      hton(a[i]) end` (left out for booleans), then `write(buf, a[1:len])`.
      The bytes are right, but the message's own array is left swapped. */
  method BulkEncodeInPlace(a: array<nat>, len: nat, w: nat, swap: bool, host: ByteOrder) returns (out: seq<byte>)
    requires len <= a.Length && Fits(a[..], w) && (swap || w == 1)
    modifies a
    ensures a[..len] == (if swap then SwapAll(old(a[..len]), w, host) else old(a[..len]))
    ensures a[len..] == old(a[len..])
    ensures Fits(a[..], w)
    ensures out == Network(old(a[..len]), w)
  {
    ghost var orig := a[..len];
    assert Fits(orig, w);
    if swap {
      var i := 0;
      while i < len
        invariant 0 <= i <= len
        invariant a[..i] == SwapAll(orig[..i], w, host)
        invariant a[i..] == old(a[i..])
        invariant Fits(a[..], w)
      {
        assert a[i] == orig[i];
        a[i] := Hton(a[i], w, host);
        assert a[..i + 1] == a[..i] + [a[i]];
        i := i + 1;
      }
      assert a[..len] == SwapAll(orig, w, host);
      ImageOfSwapped(orig, w, host);
    } else {
      ImageOfBytes(orig, host);
    }
    out := Image(a[..len], w, host);
  }

  /** Encoding the same message twice with the code as written: the first
      output is in network order, the second is each element's host memory
      image, and the array is back where it started. */
  method EncodeTwiceInPlace(a: array<nat>, len: nat, w: nat, host: ByteOrder) returns (first: seq<byte>, second: seq<byte>)
    requires len <= a.Length && Fits(a[..], w)
    modifies a
    ensures first == Network(old(a[..len]), w)
    ensures second == Image(old(a[..len]), w, host)
    ensures a[..] == old(a[..])
  {
    ghost var orig := a[..len];
    assert Fits(orig, w);
    first := BulkEncodeInPlace(a, len, w, true, host);
    ghost var swapped := a[..len];
    second := BulkEncodeInPlace(a, len, w, true, host);
    SwapAllInvolutive(orig, w, host);
    ImageOfSwapped(swapped, w, host);
    SplitAt(a[..], len);
    SplitAt(old(a[..]), len);
  }

  lemma SplitAt(xs: seq<nat>, n: nat)
    requires n <= |xs|
    ensures xs[..n] + xs[n..] == xs
  {
  }

  lemma {:induction false} ZeroBE(n: nat)
    ensures forall i | 0 <= i < n :: ToBE(0, n)[i] == 0
  {
    if n > 0 {
      ZeroBE(n - 1);
    }
  }

  /** On a little-endian host the second encode is wrong for every multi-byte
      array whose first element is a non-zero value below 256: its first
      byte is that value where network order has 0. */
  lemma SecondEncodeWrongOnLittleEndian(xs: seq<nat>, w: nat)
    requires w >= 2 && Fits(xs, w) && |xs| > 0 && 0 < xs[0] < 256
    ensures Image(xs, w, LittleEndian) != Network(xs, w)
  {
    assert Image(xs, w, LittleEndian)[0] == ToLE(xs[0], w)[0] == xs[0];
    assert ToBE(xs[0], w) == ToBE(0, w - 1) + [xs[0]];
    ZeroBE(w - 1);
    assert Network(xs, w)[0] == ToBE(xs[0], w)[0] == 0;
  }

  /** On a big-endian host hton is the identity and the repeat is harmless. */
  lemma {:induction false} ImageOnBigEndian(xs: seq<nat>, w: nat)
    requires Fits(xs, w)
    ensures Image(xs, w, BigEndian) == Network(xs, w)
  {
    if xs != [] {
      ImageOnBigEndian(xs[1..], w);
    }
  }

  /** The intended bulk encode: swap into a scratch copy and write that,
      leaving the message untouched, so encoding is repeatable. */
  method BulkEncodeCopy(a: array<nat>, len: nat, w: nat, swap: bool, host: ByteOrder) returns (out: seq<byte>)
    requires len <= a.Length && Fits(a[..], w) && (swap || w == 1)
    ensures out == Network(a[..len], w)
  {
    var tmp := new nat[len];
    var i := 0;
    while i < len
      invariant 0 <= i <= len
      invariant tmp[..i] == a[..i]
    {
      tmp[i] := a[i];
      i := i + 1;
    }
    assert tmp[..] == a[..len];
    out := BulkEncodeInPlace(tmp, len, w, swap, host);
  }

  /** The wire model's bulk write (Wire.BulkBytes) is the intended one: the
      elements in network order. */
  lemma {:induction false} WireBulkIsNetwork(xs: seq<nat>, w: nat, swap: bool, host: ByteOrder)
    requires Fits(xs, w) && (swap || w == 1)
    ensures BulkBytes(seq(|xs|, i requires 0 <= i < |xs| => Bits(xs[i])), w, swap, host) == Ok(Network(xs, w))
  {
    var vs := seq(|xs|, i requires 0 <= i < |xs| => Bits(xs[i]));
    if xs != [] {
      assert vs[1..] == seq(|xs[1..]|, i requires 0 <= i < |xs[1..]| => Bits(xs[1..][i]));
      WireBulkIsNetwork(xs[1..], w, swap, host);
      if swap {
        WriteHton(xs[0], w, host);
      } else {
        SingleByteNoSwap(xs[0], host);
        assert ToBE(xs[0], w) == [xs[0]];
      }
    }
  }
}

=== FILE: bytes.dfy ===
/** Fixed-width integers as bytes: network (big-endian) order, the host's
    memory order, and Julia's hton/ntoh between them. Floats and doubles are
    handled only as their 32- and 64-bit patterns. */
module Bytes {

  type byte = x: int | 0 <= x < 256

  /** 256^w, the number of distinct w-byte patterns. */
  function Pow256(w: nat): (r: nat)
    ensures r >= 1
  {
    if w == 0 then 1 else 256 * Pow256(w - 1)
  }

  /** The w bytes of x, most significant first (network order). */
  function ToBE(x: nat, w: nat): (r: seq<byte>)
    requires x < Pow256(w)
    ensures |r| == w
  {
    if w == 0 then [] else ToBE(x / 256, w - 1) + [x % 256]
  }

  /** The number whose network-order bytes are s. */
  function FromBE(s: seq<byte>): (r: nat)
    ensures r < Pow256(|s|)
  {
    if s == [] then 0 else FromBE(s[..|s| - 1]) * 256 + s[|s| - 1]
  }

  /** The w bytes of x, least significant first. */
  function ToLE(x: nat, w: nat): (r: seq<byte>)
    requires x < Pow256(w)
    ensures |r| == w
  {
    if w == 0 then [] else [x % 256] + ToLE(x / 256, w - 1)
  }

  /** The number whose least-significant-first bytes are s. */
  function FromLE(s: seq<byte>): (r: nat)
    ensures r < Pow256(|s|)
  {
    if s == [] then 0 else s[0] + 256 * FromLE(s[1..])
  }

  function Reverse<T>(s: seq<T>): (r: seq<T>)
    ensures |r| == |s|
  {
    if s == [] then [] else [s[|s| - 1]] + Reverse(s[..|s| - 1])
  }

  lemma {:induction false} ReverseReverse<T>(s: seq<T>)
    ensures Reverse(Reverse(s)) == s
  {
    if s != [] {
      var init, last := s[..|s| - 1], s[|s| - 1];
      ReverseCons(last, Reverse(init));
      ReverseReverse(init);
      assert init + [last] == s;
    }
  }

  /** Reversing x :: s puts x last. */
  lemma {:induction false} ReverseCons<T>(x: T, s: seq<T>)
    ensures Reverse([x] + s) == Reverse(s) + [x]
  {
    if s != [] {
      var t := [x] + s;
      assert t[..|t| - 1] == [x] + s[..|s| - 1];
      ReverseCons(x, s[..|s| - 1]);
    }
  }

  /** Network order round trip: reading back written bytes gives x. */
  lemma {:induction false} FromToBE(x: nat, w: nat)
    requires x < Pow256(w)
    ensures FromBE(ToBE(x, w)) == x
  {
    if w > 0 {
      var s := ToBE(x, w);
      assert s[..w - 1] == ToBE(x / 256, w - 1);
      FromToBE(x / 256, w - 1);
    }
  }

  /** ... and writing a read value gives back the bytes. */
  lemma {:induction false} ToFromBE(s: seq<byte>)
    ensures ToBE(FromBE(s), |s|) == s
  {
    if s != [] {
      var init := s[..|s| - 1];
      var a, b := FromBE(init), s[|s| - 1];
      assert (a * 256 + b) / 256 == a;
      assert (a * 256 + b) % 256 == b;
      ToFromBE(init);
    }
  }

  /** Least-significant-first is network order reversed. */
  lemma {:induction false} ToLEIsReversedBE(x: nat, w: nat)
    requires x < Pow256(w)
    ensures ToLE(x, w) == Reverse(ToBE(x, w))
  {
    if w > 0 {
      var be := ToBE(x, w);
      assert be[..w - 1] == ToBE(x / 256, w - 1);
      ToLEIsReversedBE(x / 256, w - 1);
    }
  }

  lemma {:induction false} FromLEIsReversedBE(s: seq<byte>)
    ensures FromLE(s) == FromBE(Reverse(s))
  {
    if s != [] {
      FromLEIsReversedBE(s[1..]);
      ReverseCons(s[0], s[1..]);
      assert [s[0]] + s[1..] == s;
      var r := Reverse(s[1..]) + [s[0]];
      assert r[..|r| - 1] == Reverse(s[1..]);
    }
  }

  /** The byte order of the machine the generated Julia code runs on. */
  datatype ByteOrder = LittleEndian | BigEndian

  /** The bytes Julia's write(buf, x) emits for a w-byte value: its memory image. */
  function Mem(x: nat, w: nat, host: ByteOrder): (r: seq<byte>)
    requires x < Pow256(w)
    ensures |r| == w
  {
    if host == LittleEndian then ToLE(x, w) else ToBE(x, w)
  }

  /** reinterpret(T, bytes): the value whose memory image is s. */
  function FromMem(s: seq<byte>, host: ByteOrder): (r: nat)
    ensures r < Pow256(|s|)
  {
    if host == LittleEndian then FromLE(s) else FromBE(s)
  }

  /** Julia's hton on a w-byte value; ntoh is the same operation. On a
      little-endian host it swaps the bytes, on a big-endian host it does
      nothing. */
  function Hton(x: nat, w: nat, host: ByteOrder): (r: nat)
    requires x < Pow256(w)
    ensures r < Pow256(w)
  {
    if host == LittleEndian then FromBE(ToLE(x, w)) else x
  }

  /** write(buf, hton(x)) emits x in network order, on either host. */
  lemma WriteHton(x: nat, w: nat, host: ByteOrder)
    requires x < Pow256(w)
    ensures Mem(Hton(x, w, host), w, host) == ToBE(x, w)
  {
    if host == LittleEndian {
      var le := ToLE(x, w);
      calc {
        ToLE(FromBE(le), w);
        { ToLEIsReversedBE(FromBE(le), w); }
        Reverse(ToBE(FromBE(le), w));
        { ToFromBE(le); }
        Reverse(le);
        { ToLEIsReversedBE(x, w); }
        Reverse(Reverse(ToBE(x, w)));
        { ReverseReverse(ToBE(x, w)); }
        ToBE(x, w);
      }
    }
  }

  /** ntoh(reinterpret(T, read(buf, w))) is the network-order value of the
      bytes read, on either host. */
  lemma ReadNtoh(s: seq<byte>, host: ByteOrder)
    ensures Hton(FromMem(s, host), |s|, host) == FromBE(s)
  {
    if host == LittleEndian {
      var v := FromLE(s);
      calc {
        FromBE(ToLE(v, |s|));
        { ToLEIsReversedBE(v, |s|); }
        FromBE(Reverse(ToBE(v, |s|)));
        { FromLEIsReversedBE(s); ToFromBE(Reverse(s)); }
        FromBE(Reverse(Reverse(s)));
        { ReverseReverse(s); }
        FromBE(s);
      }
    }
  }

  /** A value written with hton and read back with ntoh at the same width
      is unchanged. */
  lemma HtonNtohRoundTrip(x: nat, w: nat, host: ByteOrder)
    requires x < Pow256(w)
    ensures Hton(FromMem(Mem(Hton(x, w, host), w, host), host), w, host) == x
  {
    WriteHton(x, w, host);
    ReadNtoh(ToBE(x, w), host);
    FromToBE(x, w);
  }

  /** For one-byte values hton is the identity, so writing with or without
      it emits the same byte. */
  lemma SingleByteNoSwap(x: nat, host: ByteOrder)
    requires x < Pow256(1)
    ensures Hton(x, 1, host) == x
    ensures Mem(x, 1, host) == [x]
  {
  }

  /** The two's-complement value of a w-byte pattern. */
  function ToSigned(b: nat, w: nat): (v: int)
    requires b < Pow256(w)
    ensures -(Pow256(w) as int) <= 2 * v < Pow256(w)
  {
    if 2 * b < Pow256(w) then b else b - Pow256(w)
  }

  /** The w-byte pattern of a signed value in range; the inverse of ToSigned. */
  function FromSigned(v: int, w: nat): (b: nat)
    requires -(Pow256(w) as int) <= 2 * v < Pow256(w)
    ensures b < Pow256(w) && ToSigned(b, w) == v
  {
    if v >= 0 then v else v + Pow256(w)
  }

  lemma SignedRoundTrip(b: nat, w: nat)
    requires b < Pow256(w)
    ensures FromSigned(ToSigned(b, w), w) == b
  {
  }
}

=== FILE: dependencies.dfy ===
/** The include list at the top of a generated Julia file: one `include`
    line per composite type the struct's members refer to. */
module Dependencies {
  import opened Schema
  import opened Names

  /** tn is a composite type named by one of the first n members, other
      than the struct itself. */
  predicate DependsWithin(s: Struct, n: nat, tn: string)
    requires n <= |s.members|
  {
    (exists j | 0 <= j < n :: s.members[j].typeName == tn) &&
    !IsPrimitiveType(tn) && tn != s.fullname
  }

  /** The dependency set: the composite member types, minus the struct's own name. */
  predicate IsDependency(s: Struct, tn: string)
  {
    DependsWithin(s, |s.members|, tn)
  }

  predicate NoDuplicates(xs: seq<string>)
  {
    forall a, b | 0 <= a < b < |xs| :: xs[a] != xs[b]
  }

  /** The line that loads one dependency: its package path as a relative file. */
  function IncludeLine(tn: string): (r: string)
    ensures |r| == |tn| + 14
    ensures r[..9] == "include(\"" && r[|r| - 5..] == ".jl\")"
    ensures r[9..|r| - 5] == DotsToSlashes(tn)
  {
    "include(\"" + DotsToSlashes(tn) + ".jl\")"
  }

  /** emitDependencies: collects the dependency set member by member, then
      writes one include line per dependency and a blank line after a
      non-empty list. The set is kept as a sequence in insertion order. */
  method EmitDependencies(s: Struct) returns (deps: seq<string>, lines: seq<string>)
    ensures forall tn :: tn in deps <==> IsDependency(s, tn)
    ensures NoDuplicates(deps)
    ensures |lines| == |deps| + (if |deps| > 0 then 1 else 0)
    ensures forall i | 0 <= i < |deps| :: lines[i] == IncludeLine(deps[i])
    ensures |deps| > 0 ==> lines[|deps|] == ""
  {
    deps := [];
    var i := 0;
    while i < |s.members|
      invariant 0 <= i <= |s.members|
      invariant forall tn :: tn in deps <==> DependsWithin(s, i, tn)
      invariant NoDuplicates(deps)
    {
      var tn := s.members[i].typeName;
      if !IsPrimitiveType(tn) && tn !in deps && tn != s.fullname {
        deps := deps + [tn];
      }
      forall t ensures DependsWithin(s, i + 1, t) <==> DependsWithin(s, i, t) || (t == tn && !IsPrimitiveType(tn) && tn != s.fullname) {
        if DependsWithin(s, i + 1, t) && !DependsWithin(s, i, t) {
          var j :| 0 <= j < i + 1 && s.members[j].typeName == t;
          assert j == i;
        }
      }
      i := i + 1;
    }
    lines := [];
    var k := 0;
    while k < |deps|
      invariant 0 <= k <= |deps|
      invariant |lines| == k
      invariant forall a | 0 <= a < k :: lines[a] == IncludeLine(deps[a])
    {
      lines := lines + [IncludeLine(deps[k])];
      k := k + 1;
    }
    if |deps| > 0 {
      lines := lines + [""];
    }
  }

  /** On names without '/', which zcm type names are, an include line
      determines its type: distinct dependencies get distinct lines. */
  lemma IncludeLineInjective(a: string, b: string)
    requires '/' !in a && '/' !in b
    ensures IncludeLine(a) == IncludeLine(b) ==> a == b
  {
    var la, lb := IncludeLine(a), IncludeLine(b);
    if la == lb {
      assert DotsToSlashes(a) == la[9..|la| - 5] == DotsToSlashes(b);
      forall i | 0 <= i < |a| ensures a[i] == b[i] {
        assert a[i] in a && b[i] in b;
        assert DotsToSlashes(a)[i] == DotsToSlashes(b)[i];
      }
    }
  }

  /** Every dependency of a struct of a closed graph is itself a struct of
      the graph, so each include names a file the same run generates. */
  lemma DependenciesInGraph(g: Graph, name: string, tn: string)
    requires Closed(g) && name in g && IsDependency(g[name], tn)
    ensures tn in g && tn != name
  {
    var s := g[name];
    var j :| 0 <= j < |s.members| && s.members[j].typeName == tn;
    assert s.members[j] in s.members;
  }

  /** A struct whose only composite members name itself includes nothing. */
  lemma SelfReferenceIncludesNothing(s: Struct)
    requires forall m | m in s.members :: IsPrimitiveType(m.typeName) || m.typeName == s.fullname
    ensures forall tn :: !IsDependency(s, tn)
  {
    forall tn ensures !IsDependency(s, tn) {
      forall j | 0 <= j < |s.members|
        ensures s.members[j].typeName != tn || IsPrimitiveType(tn) || tn == s.fullname
      {
        assert s.members[j] in s.members;
      }
    }
  }
}

=== FILE: fingerprint.dfy ===
/** The structural fingerprint computed by the generated
    `_get_hash_recursive`: the schema loader's base hash plus the fingerprints
    of the composite members, finished with a one-bit circular left rotation;
    a struct already on the ancestor list contributes 0. */
module Hashing {
  import opened Schema

  /** 2^63, the value of a UInt64's top bit. */
  const HALF: nat := 0x8000_0000_0000_0000

  /** UInt64 addition: wraps modulo 2^64. */
  function Add(a: u64, b: u64): (r: u64)
    ensures r == (a + b) % TWO64
  {
    if a + b < TWO64 then a + b else a + b - TWO64
  }

  /** `(hash << 1) + ((hash >>> 63) & 0x01)` on a UInt64: the top bit,
      shifted out on the left, comes back in at the bottom. */
  function Rotl1(h: u64): u64
  {
    if h < HALF then 2 * h else 2 * h - TWO64 + 1
  }

  /** One-bit circular right rotation. */
  function Rotr1(h: u64): u64
  {
    if h % 2 == 0 then h / 2 else h / 2 + HALF
  }

  /** Rotl1 is the shift expression: `h << 1` keeps 2h modulo 2^64 and
      `(h >>> 63) & 1` is the top bit, h div 2^63 ... */
  lemma Rotl1IsShiftExpression(h: u64)
    ensures Rotl1(h) == (2 * h) % TWO64 + h / HALF
  {
  }

  /** ... and its inverse is Rotr1, so it is a bijection on 64-bit words. */
  lemma Rotl1Inverse(h: u64)
    ensures Rotr1(Rotl1(h)) == h && Rotl1(Rotr1(h)) == h
  {
  }

  /** Distinct pre-rotation sums give distinct fingerprints. */
  lemma Rotl1Injective(a: u64, b: u64)
    requires a != b
    ensures Rotl1(a) != Rotl1(b)
  {
    Rotl1Inverse(a);
    Rotl1Inverse(b);
  }

  /** Which name the cycle check compares: the generated code puts the
      struct's short name on the ancestor list. */
  datatype CycleKey = ShortName | FullName

  function KeyOf(s: Struct, key: CycleKey): string
  {
    if key == ShortName then s.shortname else s.fullname
  }

  function Keys(g: Graph, key: CycleKey): set<string>
  {
    set k | k in g :: KeyOf(g[k], key)
  }

  /** Keys not yet on the ancestor list; shrinks on every recursive step. */
  function Pending(g: Graph, key: CycleKey, parents: seq<string>): nat
  {
    |Keys(g, key) - set p | p in parents|
  }

  lemma PendingShrinks(g: Graph, key: CycleKey, parents: seq<string>, name: string)
    requires name in g && KeyOf(g[name], key) !in parents
    ensures Pending(g, key, parents + [KeyOf(g[name], key)]) < Pending(g, key, parents)
  {
    var k := KeyOf(g[name], key);
    var a := Keys(g, key) - set p | p in parents + [k];
    var b := Keys(g, key) - set p | p in parents;
    assert k in Keys(g, key);
    assert b == a + {k};
  }

  predicate ChildrenIn(g: Graph, ms: seq<Member>)
  {
    forall m | m in ms :: !IsPrimitiveType(m.typeName) ==> m.typeName in g
  }

  /** The value `_get_hash_recursive(parents)` returns on a fresh instance
      (nothing memoised yet). */
  function Fingerprint(g: Graph, key: CycleKey, name: string, parents: seq<string>): u64
    requires Closed(g) && name in g
    decreases Pending(g, key, parents), 0, 0
  {
    var s := g[name];
    var k := KeyOf(s, key);
    if k in parents then 0
    else
      PendingShrinks(g, key, parents, name);
      Rotl1(Add(s.baseHash, ChildSum(g, key, s.members, parents + [k])))
  }

  /** One term per composite member, whatever its dimensions; primitive
      members add nothing. Addition wraps modulo 2^64. */
  function ChildSum(g: Graph, key: CycleKey, ms: seq<Member>, parents: seq<string>): u64
    requires Closed(g) && ChildrenIn(g, ms)
    decreases Pending(g, key, parents), 1, |ms|
  {
    if ms == [] then 0
    else
      Add(if IsPrimitiveType(ms[0].typeName) then 0 else Fingerprint(g, key, ms[0].typeName, parents),
          ChildSum(g, key, ms[1..], parents))
  }

  /** The children's contribution depends only on the members' type names:
      changing any member's dimensions leaves it unchanged. */
  lemma {:induction false} ChildSumIgnoresDims(g: Graph, key: CycleKey, ms: seq<Member>, ms': seq<Member>, parents: seq<string>)
    requires Closed(g) && ChildrenIn(g, ms)
    requires |ms| == |ms'| && forall i | 0 <= i < |ms| :: ms[i].typeName == ms'[i].typeName
    ensures ChildrenIn(g, ms')
    ensures ChildSum(g, key, ms, parents) == ChildSum(g, key, ms', parents)
  {
    assert forall m | m in ms' :: exists i :: 0 <= i < |ms| && ms'[i] == m && ms[i] in ms;
    if ms != [] {
      ChildSumIgnoresDims(g, key, ms[1..], ms'[1..], parents);
    }
  }

  /** The children's contribution splits over concatenation ... */
  lemma {:induction false} ChildSumAppend(g: Graph, key: CycleKey, a: seq<Member>, b: seq<Member>, parents: seq<string>)
    requires Closed(g) && ChildrenIn(g, a) && ChildrenIn(g, b)
    ensures ChildrenIn(g, a + b)
    ensures ChildSum(g, key, a + b, parents) == Add(ChildSum(g, key, a, parents), ChildSum(g, key, b, parents))
  {
    if a != [] {
      assert (a + b)[1..] == a[1..] + b;
      assert (a + b)[0] == a[0];
      ChildSumAppend(g, key, a[1..], b, parents);
      AddAssociative(if IsPrimitiveType(a[0].typeName) then 0 else Fingerprint(g, key, a[0].typeName, parents),
                     ChildSum(g, key, a[1..], parents), ChildSum(g, key, b, parents));
    } else {
      assert a + b == b;
    }
  }

  lemma AddAssociative(x: u64, y: u64, z: u64)
    ensures Add(x, Add(y, z)) == Add(Add(x, y), z)
  {
  }

  /** ... so it is the same whichever order the members come in: member
      order reaches the fingerprint only through the base hash. */
  lemma ChildSumOrderInsensitive(g: Graph, key: CycleKey, a: seq<Member>, b: seq<Member>, parents: seq<string>)
    requires Closed(g) && ChildrenIn(g, a) && ChildrenIn(g, b)
    ensures ChildrenIn(g, a + b) && ChildrenIn(g, b + a)
    ensures ChildSum(g, key, a + b, parents) == ChildSum(g, key, b + a, parents)
  {
    ChildSumAppend(g, key, a, b, parents);
    ChildSumAppend(g, key, b, a, parents);
  }

  /** Members whose types are all on the ancestor list contribute nothing. */
  lemma {:induction false} ChildSumOfAncestors(g: Graph, key: CycleKey, ms: seq<Member>, parents: seq<string>)
    requires Closed(g) && ChildrenIn(g, ms)
    requires forall m | m in ms && !IsPrimitiveType(m.typeName) :: KeyOf(g[m.typeName], key) in parents
    ensures ChildSum(g, key, ms, parents) == 0
  {
    if ms != [] {
      assert ms[0] in ms;
      ChildSumOfAncestors(g, key, ms[1..], parents);
    }
  }

  /** A struct whose composite members are all of its own type has a finite
      fingerprint: the rotated base hash. */
  lemma SelfReferenceFingerprint(g: Graph, key: CycleKey, name: string)
    requires Closed(g) && name in g
    requires forall m | m in g[name].members && !IsPrimitiveType(m.typeName) :: m.typeName == name
    ensures Fingerprint(g, key, name, []) == Rotl1(g[name].baseHash)
  {
    var k := KeyOf(g[name], key);
    ChildSumOfAncestors(g, key, g[name].members, [] + [k]);
  }

  /** Two structs that each hold one member of the other's type: the cycle
      is cut when it returns to the first. */
  lemma MutualReferenceFingerprint(g: Graph, key: CycleKey, a: string, b: string)
    requires Closed(g) && a in g && b in g
    requires KeyOf(g[a], key) != KeyOf(g[b], key)
    requires |g[a].members| == 1 && g[a].members[0].typeName == b && !IsPrimitiveType(b)
    requires |g[b].members| == 1 && g[b].members[0].typeName == a && !IsPrimitiveType(a)
    ensures Fingerprint(g, key, a, []) == Rotl1(Add(g[a].baseHash, Rotl1(g[b].baseHash)))
  {
    var ka, kb := KeyOf(g[a], key), KeyOf(g[b], key);
    var mb := g[b].members;
    assert mb[1..] == [];
    assert ChildSum(g, key, mb, [ka, kb]) == Add(Fingerprint(g, key, a, [ka, kb]), 0);
    assert [ka] + [kb] == [ka, kb];
    assert Fingerprint(g, key, b, [ka]) == Rotl1(Add(g[b].baseHash, 0));
    var ma := g[a].members;
    assert ma[1..] == [];
    assert ChildSum(g, key, ma, [ka]) == Add(Fingerprint(g, key, b, [ka]), 0);
    assert [] + [ka] == [ka];
  }

  /** A schema with one struct's base hash replaced: still closed, with the
      same keys and members everywhere. */
  lemma RebasedGraph(g: Graph, key: CycleKey, name: string, b: u64)
    requires Closed(g) && name in g
    ensures Closed(g[name := g[name].(baseHash := b)])
    ensures Keys(g[name := g[name].(baseHash := b)], key) == Keys(g, key)
    ensures forall t | t in g :: t in g[name := g[name].(baseHash := b)] && t != name ==> g[name := g[name].(baseHash := b)][t] == g[t]
  {
    var g' := g[name := g[name].(baseHash := b)];
    forall k | k in g ensures KeyOf(g'[k], key) == KeyOf(g[k], key) { }
  }

  /** Changing a struct's base hash does not change the fingerprint of any
      struct computed beneath it (where it is an ancestor). */
  lemma {:induction false} BaseIrrelevantBelow(g: Graph, key: CycleKey, name: string, b: u64, t: string, parents: seq<string>)
    requires Closed(g) && name in g && t in g
    requires KeyOf(g[name], key) in parents
    ensures Closed(g[name := g[name].(baseHash := b)])
    ensures Fingerprint(g[name := g[name].(baseHash := b)], key, t, parents) == Fingerprint(g, key, t, parents)
    decreases Pending(g, key, parents), 0, 0
  {
    RebasedGraph(g, key, name, b);
    var k := KeyOf(g[t], key);
    if k !in parents {
      PendingShrinks(g, key, parents, t);
      ChildSumBaseIrrelevant(g, key, name, b, g[t].members, parents + [k]);
      RebasedStep(g, key, name, b, t, parents);
    }
  }

  /** One unfolding of the fingerprint of a struct other than the rebased one. */
  lemma RebasedStep(g: Graph, key: CycleKey, name: string, b: u64, t: string, parents: seq<string>)
    requires Closed(g) && name in g && t in g && t != name
    requires Closed(g[name := g[name].(baseHash := b)])
    requires KeyOf(g[t], key) !in parents
    requires ChildSum(g[name := g[name].(baseHash := b)], key, g[t].members, parents + [KeyOf(g[t], key)])
          == ChildSum(g, key, g[t].members, parents + [KeyOf(g[t], key)])
    ensures Fingerprint(g[name := g[name].(baseHash := b)], key, t, parents) == Fingerprint(g, key, t, parents)
  {
  }

  lemma {:induction false} ChildSumBaseIrrelevant(g: Graph, key: CycleKey, name: string, b: u64, ms: seq<Member>, parents: seq<string>)
    requires Closed(g) && name in g && ChildrenIn(g, ms)
    requires KeyOf(g[name], key) in parents
    ensures Closed(g[name := g[name].(baseHash := b)]) && ChildrenIn(g[name := g[name].(baseHash := b)], ms)
    ensures ChildSum(g[name := g[name].(baseHash := b)], key, ms, parents) == ChildSum(g, key, ms, parents)
    decreases Pending(g, key, parents), 1, |ms|
  {
    RebasedGraph(g, key, name, b);
    if ms != [] {
      assert ms[0] in ms;
      if !IsPrimitiveType(ms[0].typeName) {
        BaseIrrelevantBelow(g, key, name, b, ms[0].typeName, parents);
      }
      ChildSumBaseIrrelevant(g, key, name, b, ms[1..], parents);
    }
  }

  /** Any change to the base hash, which the schema loader derives from the
      struct's textual shape, changes the fingerprint. */
  lemma BaseHashSensitive(g: Graph, key: CycleKey, name: string, b: u64)
    requires Closed(g) && name in g && b != g[name].baseHash
    ensures Closed(g[name := g[name].(baseHash := b)])
    ensures Fingerprint(g[name := g[name].(baseHash := b)], key, name, [])
         != Fingerprint(g, key, name, [])
  {
    var g' := g[name := g[name].(baseHash := b)];
    var k := KeyOf(g[name], key);
    assert KeyOf(g'[name], key) == k;
    ChildSumBaseIrrelevant(g, key, name, b, g[name].members, [] + [k]);
    var c := ChildSum(g, key, g[name].members, [] + [k]);
    assert Add(b, c) != Add(g[name].baseHash, c);
    Rotl1Injective(Add(b, c), Add(g[name].baseHash, c));
  }

  /** As written, the cycle check compares short names: a struct holding a
      single member of another package's struct with the same short name
      gets the fingerprint of a struct with no composite members at all,
      whatever that dependency's shape. */
  lemma ShortNameCollisionHidesDependency(g: Graph, name: string, t: string, dims: seq<Dimension>, x: string)
    requires Closed(g) && name in g && t in g && !IsPrimitiveType(t)
    requires g[name].members == [Member(x, t, dims)]
    requires g[t].shortname == g[name].shortname
    ensures Fingerprint(g, ShortName, name, []) == Rotl1(g[name].baseHash)
  {
    var k := KeyOf(g[name], ShortName);
    assert g[name].members[0] in g[name].members;
    ChildSumOfAncestors(g, ShortName, g[name].members, [] + [k]);
  }

  /** Corrected: compared by full name, the same dependency contributes its
      own fingerprint, so a change to its shape reaches the referring struct. */
  lemma FullNameKeepsDependency(g: Graph, name: string, t: string, dims: seq<Dimension>, x: string)
    requires Closed(g) && name in g && t in g && !IsPrimitiveType(t) && t != name
    requires g[name].members == [Member(x, t, dims)]
    requires forall m | m in g[t].members :: IsPrimitiveType(m.typeName)
    ensures Fingerprint(g, FullName, name, []) == Rotl1(Add(g[name].baseHash, Rotl1(g[t].baseHash)))
  {
    var k := KeyOf(g[name], FullName);
    assert [] + [k] == [name];
    ChildSumOfAncestors(g, FullName, g[t].members, [name, t]);
    assert [name] + [t] == [name, t];
    assert Fingerprint(g, FullName, t, [name]) == Rotl1(Add(g[t].baseHash, 0));
    var ms := g[name].members;
    assert ms[1..] == [];
    assert ChildSum(g, FullName, ms, [name]) == Add(Fingerprint(g, FullName, t, [name]), 0);
  }

  /** Two structs a.X and b.X, the first holding one b.X member. */
  function CollidingGraph(depBase: u64): Graph
  {
    map[
      "a.X" := Struct("a.X", "X", [Member("p", "b.X", [])], [], 1),
      "b.X" := Struct("b.X", "X", [Member("v", "int32_t", [])], [], depBase)
    ]
  }

  lemma CollidingGraphClosed(depBase: u64)
    ensures Closed(CollidingGraph(depBase))
  {
    var g := CollidingGraph(depBase);
    assert !IsPrimitiveType("b.X");
    forall k | k in g ensures g[k].fullname == k { }
  }

  /** The discrepancy on a concrete pair of schemas: changing b.X's shape
      (its base hash 2 to 3) leaves a.X's fingerprint unchanged as written,
      and changes it under the full-name check. */
  lemma ShortNameCollisionWitness()
    ensures Closed(CollidingGraph(2)) && Closed(CollidingGraph(3))
    ensures Fingerprint(CollidingGraph(2), ShortName, "a.X", []) == Fingerprint(CollidingGraph(3), ShortName, "a.X", [])
    ensures Fingerprint(CollidingGraph(2), FullName, "a.X", []) != Fingerprint(CollidingGraph(3), FullName, "a.X", [])
  {
    CollidingGraphClosed(2);
    CollidingGraphClosed(3);
    var g2, g3 := CollidingGraph(2), CollidingGraph(3);
    assert !IsPrimitiveType("b.X");
    assert forall m | m in g2["b.X"].members :: IsPrimitiveType(m.typeName);
    assert forall m | m in g3["b.X"].members :: IsPrimitiveType(m.typeName);
    ShortNameCollisionHidesDependency(g2, "a.X", "b.X", [], "p");
    ShortNameCollisionHidesDependency(g3, "a.X", "b.X", [], "p");
    FullNameKeepsDependency(g2, "a.X", "b.X", [], "p");
    FullNameKeepsDependency(g3, "a.X", "b.X", [], "p");
    assert Rotl1(2) != Rotl1(3) by { Rotl1Injective(2, 3); }
    Rotl1Injective(Add(1, Rotl1(2)), Add(1, Rotl1(3)));
  }
}

=== FILE: hashcache.dfy ===
/** The memoised `_get_hash_recursive` and `getHash`: the first computed
    value of a struct is stored, and a stored non-zero value is returned
    without recomputation. */
module HashCache {
  import opened Schema
  import opened Hashing

  /** The stored `_hash` of a struct, 0 when nothing is stored. */
  function Lookup(c: map<string, u64>, name: string): u64
  {
    if name in c then c[name] else 0
  }

  /** What `_get_hash_recursive(parents)` returns, and the cache after it,
      when started from cache c. */
  function CachedHash(g: Graph, key: CycleKey, c: map<string, u64>, name: string, parents: seq<string>): (u64, map<string, u64>)
    requires Closed(g) && name in g
    decreases Pending(g, key, parents), 0, 0
  {
    if Lookup(c, name) != 0 then (c[name], c)
    else
      var k := KeyOf(g[name], key);
      if k in parents then (0, c)
      else
        PendingShrinks(g, key, parents, name);
        var (sum, c') := CachedSum(g, key, c, g[name].members, parents + [k], g[name].baseHash);
        var h := Rotl1(sum);
        (h, c'[name := h])
  }

  /** The running sum over members ms, starting from acc, threading the cache. */
  function CachedSum(g: Graph, key: CycleKey, c: map<string, u64>, ms: seq<Member>, parents: seq<string>, acc: u64): (u64, map<string, u64>)
    requires Closed(g) && ChildrenIn(g, ms)
    decreases Pending(g, key, parents), 1, |ms|
  {
    if ms == [] then (acc, c)
    else if IsPrimitiveType(ms[0].typeName) then CachedSum(g, key, c, ms[1..], parents, acc)
    else
      var (h, c1) := CachedHash(g, key, c, ms[0].typeName, parents);
      CachedSum(g, key, c1, ms[1..], parents, Add(acc, h))
  }

  /** Entries already stored with a non-zero value. */
  predicate Keeps(c: map<string, u64>, c': map<string, u64>)
  {
    forall n | n in c && c[n] != 0 :: n in c' && c'[n] == c[n]
  }

  /** A stored non-zero `_hash` is never overwritten: the recursion only
      adds entries, or overwrites ones that are still 0. */
  lemma {:induction false} CachedHashKeeps(g: Graph, key: CycleKey, c: map<string, u64>, name: string, parents: seq<string>)
    requires Closed(g) && name in g
    ensures Keeps(c, CachedHash(g, key, c, name, parents).1)
    decreases Pending(g, key, parents), 0, 0
  {
    if Lookup(c, name) == 0 {
      var k := KeyOf(g[name], key);
      if k !in parents {
        PendingShrinks(g, key, parents, name);
        CachedSumKeeps(g, key, c, g[name].members, parents + [k], g[name].baseHash);
      }
    }
  }

  lemma {:induction false} CachedSumKeeps(g: Graph, key: CycleKey, c: map<string, u64>, ms: seq<Member>, parents: seq<string>, acc: u64)
    requires Closed(g) && ChildrenIn(g, ms)
    ensures Keeps(c, CachedSum(g, key, c, ms, parents, acc).1)
    decreases Pending(g, key, parents), 1, |ms|
  {
    if ms != [] {
      if IsPrimitiveType(ms[0].typeName) {
        CachedSumKeeps(g, key, c, ms[1..], parents, acc);
      } else {
        var (h, c1) := CachedHash(g, key, c, ms[0].typeName, parents);
        CachedHashKeeps(g, key, c, ms[0].typeName, parents);
        CachedSumKeeps(g, key, c1, ms[1..], parents, Add(acc, h));
      }
    }
  }

  /** Memoised entries agree with the fingerprint computed from scratch. */
  predicate CacheSound(g: Graph, key: CycleKey, c: map<string, u64>)
    requires Closed(g)
  {
    forall k | k in c && c[k] != 0 :: k in g && c[k] == Fingerprint(g, key, k, [])
  }

  /** A rank that strictly decreases from a struct to each composite member
      type: the schema has no reference cycles. */
  predicate Ranked(g: Graph, rank: map<string, nat>)
  {
    forall k | k in g ::
      k in rank &&
      forall m | m in g[k].members && !IsPrimitiveType(m.typeName) ::
        m.typeName in rank && rank[m.typeName] < rank[k]
  }

  predicate KeysInjective(g: Graph, key: CycleKey)
  {
    forall a, b | a in g && b in g && KeyOf(g[a], key) == KeyOf(g[b], key) :: a == b
  }

  /** Every struct named on the ancestor list ranks above r. */
  predicate Above(g: Graph, key: CycleKey, rank: map<string, nat>, parents: seq<string>, r: nat)
    requires Ranked(g, rank)
  {
    forall k | k in g && KeyOf(g[k], key) in parents :: rank[k] > r
  }

  lemma AboveExtend(g: Graph, key: CycleKey, rank: map<string, nat>, parents: seq<string>, t: string, u: string)
    requires Closed(g) && Ranked(g, rank) && KeysInjective(g, key)
    requires t in g && u in g && rank[u] < rank[t] && Above(g, key, rank, parents, rank[t])
    ensures Above(g, key, rank, parents + [KeyOf(g[t], key)], rank[u])
  {
  }

  /** In a schema without cycles the ancestor list never cuts anything, so
      a struct's fingerprint does not depend on it. */
  lemma {:induction false} ParentsIrrelevant(g: Graph, key: CycleKey, rank: map<string, nat>, t: string, p1: seq<string>, p2: seq<string>)
    requires Closed(g) && Ranked(g, rank) && KeysInjective(g, key) && t in g
    requires Above(g, key, rank, p1, rank[t]) && Above(g, key, rank, p2, rank[t])
    ensures Fingerprint(g, key, t, p1) == Fingerprint(g, key, t, p2)
    decreases rank[t], 1, 0
  {
    var k := KeyOf(g[t], key);
    assert k !in p1 && k !in p2;
    ChildSumParentsIrrelevant(g, key, rank, t, g[t].members, p1, p2);
  }

  /** The same for the members of t, summed below t's own key. */
  lemma {:induction false} ChildSumParentsIrrelevant(g: Graph, key: CycleKey, rank: map<string, nat>, t: string, ms: seq<Member>, p1: seq<string>, p2: seq<string>)
    requires Closed(g) && Ranked(g, rank) && KeysInjective(g, key) && t in g
    requires forall m | m in ms :: m in g[t].members
    requires Above(g, key, rank, p1, rank[t]) && Above(g, key, rank, p2, rank[t])
    ensures ChildrenIn(g, ms)
    ensures ChildSum(g, key, ms, p1 + [KeyOf(g[t], key)]) == ChildSum(g, key, ms, p2 + [KeyOf(g[t], key)])
    decreases rank[t], 0, |ms|
  {
    if ms != [] {
      var u := ms[0].typeName;
      assert ms[0] in g[t].members;
      if !IsPrimitiveType(u) {
        AboveExtend(g, key, rank, p1, t, u);
        AboveExtend(g, key, rank, p2, t, u);
        ParentsIrrelevant(g, key, rank, u, p1 + [KeyOf(g[t], key)], p2 + [KeyOf(g[t], key)]);
      }
      ChildSumParentsIrrelevant(g, key, rank, t, ms[1..], p1, p2);
    }
  }

  /** Memoisation is transparent on schemas without cycles: from a sound
      cache, `_get_hash_recursive` returns the fingerprint computed from
      scratch and leaves the cache sound. */
  lemma {:induction false} CachedHashTransparent(g: Graph, key: CycleKey, rank: map<string, nat>, c: map<string, u64>, t: string, parents: seq<string>)
    requires Closed(g) && Ranked(g, rank) && KeysInjective(g, key) && t in g
    requires CacheSound(g, key, c) && Above(g, key, rank, parents, rank[t])
    ensures CachedHash(g, key, c, t, parents).0 == Fingerprint(g, key, t, parents)
    ensures CacheSound(g, key, CachedHash(g, key, c, t, parents).1)
    decreases rank[t], 1, 0
  {
    if Lookup(c, t) != 0 {
      ParentsIrrelevant(g, key, rank, t, [], parents);
    } else {
      var k := KeyOf(g[t], key);
      assert k !in parents;
      CachedSumTransparent(g, key, rank, c, t, g[t].members, parents, g[t].baseHash);
      var (sum, c') := CachedSum(g, key, c, g[t].members, parents + [k], g[t].baseHash);
      ParentsIrrelevant(g, key, rank, t, [], parents);
      var h := Rotl1(sum);
      assert h == Fingerprint(g, key, t, parents);
      assert CacheSound(g, key, c'[t := h]);
    }
  }

  /** The same for the running sum over the members of t. */
  lemma {:induction false} CachedSumTransparent(g: Graph, key: CycleKey, rank: map<string, nat>, c: map<string, u64>, t: string, ms: seq<Member>, p: seq<string>, acc: u64)
    requires Closed(g) && Ranked(g, rank) && KeysInjective(g, key) && t in g
    requires forall m | m in ms :: m in g[t].members
    requires Above(g, key, rank, p, rank[t]) && CacheSound(g, key, c)
    ensures ChildrenIn(g, ms)
    ensures CachedSum(g, key, c, ms, p + [KeyOf(g[t], key)], acc).0 == Add(acc, ChildSum(g, key, ms, p + [KeyOf(g[t], key)]))
    ensures CacheSound(g, key, CachedSum(g, key, c, ms, p + [KeyOf(g[t], key)], acc).1)
    decreases rank[t], 0, |ms|
  {
    if ms != [] {
      var q := p + [KeyOf(g[t], key)];
      var u := ms[0].typeName;
      assert ms[0] in g[t].members;
      ChildSumCons(g, key, ms, q, acc);
      if IsPrimitiveType(u) {
        CachedSumTransparent(g, key, rank, c, t, ms[1..], p, acc);
      } else {
        AboveExtend(g, key, rank, p, t, u);
        CachedHashTransparent(g, key, rank, c, u, q);
        var (h, c1) := CachedHash(g, key, c, u, q);
        CachedSumTransparent(g, key, rank, c1, t, ms[1..], p, Add(acc, h));
      }
    }
  }

  /** The first member's share of a running child sum. */
  lemma ChildSumCons(g: Graph, key: CycleKey, ms: seq<Member>, q: seq<string>, acc: u64)
    requires Closed(g) && ChildrenIn(g, ms) && ms != []
    ensures ChildrenIn(g, ms[1..])
    ensures Add(acc, ChildSum(g, key, ms, q))
         == Add(Add(acc, if IsPrimitiveType(ms[0].typeName) then 0 else Fingerprint(g, key, ms[0].typeName, q)), ChildSum(g, key, ms[1..], q))
  {
    AddAssociative(acc, if IsPrimitiveType(ms[0].typeName) then 0 else Fingerprint(g, key, ms[0].typeName, q), ChildSum(g, key, ms[1..], q));
  }

  /** The short-name ancestor list that matches a full-name one. */
  predicate ShortImage(g: Graph, ps: seq<string>, pf: seq<string>)
  {
    |ps| == |pf| && forall i | 0 <= i < |pf| :: pf[i] in g && ps[i] == g[pf[i]].shortname
  }

  /** With distinct short names, a struct's short name is on the short list
      exactly when its full name is on the full list. */
  lemma ShortKeyOnList(g: Graph, ps: seq<string>, pf: seq<string>, name: string)
    requires Closed(g) && KeysInjective(g, ShortName) && name in g && ShortImage(g, ps, pf)
    ensures KeyOf(g[name], ShortName) in ps <==> KeyOf(g[name], FullName) in pf
  {
    if KeyOf(g[name], ShortName) in ps {
      var i :| 0 <= i < |ps| && ps[i] == g[name].shortname;
      assert KeyOf(g[pf[i]], ShortName) == KeyOf(g[name], ShortName);
    }
    if name in pf {
      var i :| 0 <= i < |pf| && pf[i] == name;
      assert ps[i] == KeyOf(g[name], ShortName);
    }
  }

  /** When no two structs share a short name, the cycle check as written
      (short names) and the corrected one (full names) give the same
      fingerprint, so the wire gate (Wire.MessageHash) is the generated
      `getHash()` on such schemas. */
  lemma {:induction false} ShortAndFullAgree(g: Graph, name: string, ps: seq<string>, pf: seq<string>)
    requires Closed(g) && KeysInjective(g, ShortName) && name in g && ShortImage(g, ps, pf)
    ensures Fingerprint(g, ShortName, name, ps) == Fingerprint(g, FullName, name, pf)
    decreases Pending(g, FullName, pf), 0, 0
  {
    ShortKeyOnList(g, ps, pf, name);
    if name !in pf {
      PendingShrinks(g, FullName, pf, name);
      ShortImageExtend(g, ps, pf, name);
      ChildSumShortAndFull(g, g[name].members, ps + [g[name].shortname], pf + [name]);
      FingerprintUnfold(g, name, ps, pf);
    }
  }

  lemma ShortImageExtend(g: Graph, ps: seq<string>, pf: seq<string>, name: string)
    requires ShortImage(g, ps, pf) && name in g
    ensures ShortImage(g, ps + [g[name].shortname], pf + [name])
  {
  }

  /** Both fingerprints of a struct on neither list, in terms of the child sums. */
  lemma FingerprintUnfold(g: Graph, name: string, ps: seq<string>, pf: seq<string>)
    requires Closed(g) && name in g && g[name].shortname !in ps && name !in pf
    ensures Fingerprint(g, ShortName, name, ps) == Rotl1(Add(g[name].baseHash, ChildSum(g, ShortName, g[name].members, ps + [g[name].shortname])))
    ensures Fingerprint(g, FullName, name, pf) == Rotl1(Add(g[name].baseHash, ChildSum(g, FullName, g[name].members, pf + [name])))
  {
  }

  lemma {:induction false} ChildSumShortAndFull(g: Graph, ms: seq<Member>, ps: seq<string>, pf: seq<string>)
    requires Closed(g) && KeysInjective(g, ShortName) && ChildrenIn(g, ms) && ShortImage(g, ps, pf)
    ensures ChildSum(g, ShortName, ms, ps) == ChildSum(g, FullName, ms, pf)
    decreases Pending(g, FullName, pf), 1, |ms|
  {
    if ms != [] {
      if !IsPrimitiveType(ms[0].typeName) {
        ShortAndFullAgree(g, ms[0].typeName, ps, pf);
      }
      ChildSumShortAndFull(g, ms[1..], ps, pf);
    }
  }

  /** Z holds a b.X and an a.X, and a.X holds a b.X; both X structs have the
      short name X. Bases: Z 3, a.X 2, b.X 1. */
  function CollisionGraph(): Graph
  {
    map[
      "Z" := Struct("Z", "Z", [Member("m1", "b.X", []), Member("m2", "a.X", [])], [], 3),
      "a.X" := Struct("a.X", "X", [Member("p", "b.X", [])], [], 2),
      "b.X" := Struct("b.X", "X", [], [], 1)
    ]
  }

  /** With the short-name check, a cache shared between instances changes
      the result: every instance of the generated code starts with `_hash`
      = 0, so Z's fingerprint is 18 (z.m2.p is cut at line 269), while one
      map shared by all instances returns b.X's stored 2 at line 268, before
      the cycle check, and gives 26. */
  lemma SharedCacheDiffersOnCollision()
    ensures Closed(CollisionGraph())
    ensures Fingerprint(CollisionGraph(), ShortName, "Z", []) == 18
    ensures CachedHash(CollisionGraph(), ShortName, map[], "Z", []).0 == 26
  {
    var g := CollisionGraph();
    assert !IsPrimitiveType("a.X") && !IsPrimitiveType("b.X");
    assert Closed(g);
    assert [] + ["Z"] == ["Z"];
    assert ["Z"] + ["X"] == ["Z", "X"];
    var mz := g["Z"].members;
    var ma := g["a.X"].members;
    assert mz[1..][1..] == [] && ma[1..] == [];
    assert Fingerprint(g, ShortName, "b.X", ["Z", "X"]) == 0;
    assert ChildSum(g, ShortName, ma, ["Z", "X"]) == 0;
    assert Fingerprint(g, ShortName, "b.X", ["Z"]) == 2;
    assert Fingerprint(g, ShortName, "a.X", ["Z"]) == 4;
    assert ChildSum(g, ShortName, mz[1..], ["Z"]) == 4;
    assert ChildSum(g, ShortName, mz, ["Z"]) == 6;
    var c1 := map["b.X" := 2];
    assert CachedHash(g, ShortName, map[], "b.X", ["Z"]) == (2, c1);
    assert CachedHash(g, ShortName, c1, "b.X", ["Z", "X"]) == (2, c1);
    assert CachedSum(g, ShortName, c1, ma, ["Z", "X"], 2) == (4, c1);
    assert CachedHash(g, ShortName, c1, "a.X", ["Z"]).0 == 8;
    assert CachedSum(g, ShortName, map[], mz, ["Z"], 3).0 == 13;
  }

  /** The memoised hash with one cache keyed by full name, shared by every
      instance; the generated code keeps `_hash` in each instance's closure.
      The two agree on schemas without cycles whose structs have distinct
      short names (CachedHashTransparent), and may differ otherwise
      (SharedCacheDiffersOnCollision). */
  class Memo {
    const g: Graph
    const key: CycleKey
    var cached: map<string, u64>

    constructor (g: Graph, key: CycleKey)
      requires Closed(g)
      ensures this.g == g && this.key == key && cached == map[]
    {
      this.g := g;
      this.key := key;
      cached := map[];
    }

    /** `_get_hash_recursive(parents)`. */
    method GetHashRecursive(name: string, parents: seq<string>) returns (h: u64)
      requires Closed(g) && name in g
      modifies this
      ensures (h, cached) == CachedHash(g, key, old(cached), name, parents)
      ensures Lookup(old(cached), name) != 0 ==> h == old(cached)[name] && cached == old(cached)
      ensures Lookup(old(cached), name) == 0 && KeyOf(g[name], key) in parents ==> h == 0 && cached == old(cached)
      ensures Lookup(old(cached), name) == 0 && KeyOf(g[name], key) !in parents ==> name in cached && cached[name] == h
      ensures Keeps(old(cached), cached)
      decreases Pending(g, key, parents)
    {
      CachedHashKeeps(g, key, cached, name, parents);
      if Lookup(cached, name) != 0 {
        return cached[name];
      }
      var s := g[name];
      var k := KeyOf(s, key);
      if k in parents {
        return 0;
      }
      var newparents := parents + [k];
      PendingShrinks(g, key, parents, name);
      var hash := s.baseHash;
      var i := 0;
      while i < |s.members|
        invariant 0 <= i <= |s.members|
        invariant CachedSum(g, key, old(cached), s.members, newparents, s.baseHash)
               == CachedSum(g, key, cached, s.members[i..], newparents, hash)
      {
        var m := s.members[i];
        assert s.members[i..][0] == m && s.members[i..][1..] == s.members[i + 1..];
        if !IsPrimitiveType(m.typeName) {
          var child := GetHashRecursive(m.typeName, newparents);
          hash := Add(hash, child);
        }
        i := i + 1;
      }
      h := Rotl1(hash);
      cached := cached[name := h];
    }

    /** `getHash()`: the recursion started with no ancestors. */
    method GetHash(name: string) returns (h: u64)
      requires Closed(g) && name in g
      modifies this
      ensures (h, cached) == CachedHash(g, key, old(cached), name, [])
    {
      h := GetHashRecursive(name, []);
    }
  }

  /** Hashing several structs through one memo, in any order: on a schema
      without cycles every result is the struct's fingerprint, so the memo
      never changes an answer. */
  method HashAll(g: Graph, key: CycleKey, rank: map<string, nat>, names: seq<string>) returns (hs: seq<u64>)
    requires Closed(g) && Ranked(g, rank) && KeysInjective(g, key)
    requires forall i | 0 <= i < |names| :: names[i] in g
    ensures |hs| == |names|
    ensures forall i | 0 <= i < |names| :: hs[i] == Fingerprint(g, key, names[i], [])
  {
    var memo := new Memo(g, key);
    hs := [];
    var i := 0;
    while i < |names|
      invariant 0 <= i <= |names| && |hs| == i
      invariant memo.g == g && memo.key == key && CacheSound(g, key, memo.cached)
      invariant forall j | 0 <= j < i :: hs[j] == Fingerprint(g, key, names[j], [])
    {
      CachedHashTransparent(g, key, rank, memo.cached, names[i], []);
      var h := memo.GetHash(names[i]);
      hs := hs + [h];
      i := i + 1;
    }
  }

  /** Two structs, each holding one member of the other's type. */
  function CyclicGraph(): Graph
  {
    map[
      "A" := Struct("A", "A", [Member("b", "B", [])], [], 1),
      "B" := Struct("B", "B", [Member("a", "A", [])], [], 1)
    ]
  }

  /** With a reference cycle the memo is not transparent: hashing A first
      stores for B the value computed with A on the ancestor list (2), while
      B's fingerprint from scratch is 6. */
  lemma CyclicMemoDependsOnOrder()
    ensures Closed(CyclicGraph())
    ensures "B" in CachedHash(CyclicGraph(), FullName, map[], "A", []).1
    ensures CachedHash(CyclicGraph(), FullName, map[], "A", []).1["B"] == 2
    ensures Fingerprint(CyclicGraph(), FullName, "B", []) == 6
  {
    var g := CyclicGraph();
    assert !IsPrimitiveType("A") && !IsPrimitiveType("B");
    assert Closed(g);
    MutualReferenceFingerprint(g, FullName, "B", "A");
    assert [] + ["A"] == ["A"];
    assert ["A"] + ["B"] == ["A", "B"];
    var ma := g["A"].members;
    assert ma[1..] == [];
    var mb := g["B"].members;
    assert mb[1..] == [];
    assert CachedHash(g, FullName, map[], "A", ["A", "B"]) == (0, map[]);
    assert CachedSum(g, FullName, map[], mb, ["A", "B"], 1) == (1, map[]);
    assert CachedHash(g, FullName, map[], "B", ["A"]) == (2, map["B" := 2]);
  }
}

=== FILE: initializer.dfy ===
/** Default values that a generated constructor assigns: a zero for each
    member, built recursively over the member's dimensions, and the
    initialiser of each constant. */
module Initializer {
  import opened Schema
  import opened Names

  /** The initialiser expression of a member at one dimension depth. */
  datatype Init =
    | Literal(text: string)                             // zero literal of a primitive
    | Construct(typeName: string)                       // `T()` for a composite
    | EmptyArray(elemType: string, rank: nat)           // `Array{T,rank}(0,...,0)`
    | Comprehension(index: nat, count: nat, body: Init) // `[ body for dim<index> in range(1,count) ]`

  /** The zero literal of each primitive. */
  function ZeroLiteral(p: Primitive): string
  {
    match p
    case Byte => "0"
    case Int8 => "0"
    case Int16 => "0"
    case Int32 => "0"
    case Int64 => "0"
    case Boolean => "false"
    case Float => "0.0"
    case Double => "0.0"
    case Str => "\"\""
  }

  /** The initialiser of one element: a primitive's zero, or the composite's
      constructor called by the type's full name. */
  function LeafInit(tn: string): Init
  {
    match PrimitiveOf(tn)
    case Some(p) => Literal(ZeroLiteral(p))
    case None => Construct(tn)
  }

  /** emitMemberInitializer at depth d. A variable dimension stops the
      recursion with an empty array of the remaining rank; a constant one
      becomes a comprehension over its size. */
  function MemberInitializer(m: Member, d: nat): Init
    requires d <= |m.dims|
    decreases |m.dims| - d
  {
    if d == |m.dims| then LeafInit(m.typeName)
    else match m.dims[d]
      case Var(_) => EmptyArray(MapTypeName(m.typeName), |m.dims| - d)
      case Const(n) => Comprehension(d, n, MemberInitializer(m, d + 1))
  }

  /** The extents of the value an initialiser builds, outermost first. */
  function Shape(i: Init): seq<nat>
  {
    match i
    case Literal(_) => []
    case Construct(_) => []
    case EmptyArray(_, r) => seq(r, _ => 0)
    case Comprehension(_, c, b) => [c] + Shape(b)
  }

  /** The element every cell of the initialised array holds, if it has cells
      of a known element at all (an empty array has none). */
  function Element(i: Init): Option<Init>
  {
    match i
    case Literal(_) => Some(i)
    case Construct(_) => Some(i)
    case EmptyArray(_, _) => None
    case Comprehension(_, _, b) => Element(b)
  }

  /** Dimensions d..k of a member are all constant. */
  predicate FixedThrough(dims: seq<Dimension>, d: nat, k: nat)
    requires k < |dims|
  {
    forall j | d <= j <= k :: dims[j].Const?
  }

  /** The extent the default value has at dimension k: the declared size while
      every dimension from d on is constant, 0 from the first variable one. */
  function DefaultExtent(dims: seq<Dimension>, d: nat, k: nat): nat
    requires d <= k < |dims|
  {
    if FixedThrough(dims, d, k) then dims[k].size else 0
  }

  /** The default value has the member's declared rank; its extents are the
      constant sizes up to the first variable dimension and 0 from there on. */
  lemma {:induction false} InitializerShape(m: Member, d: nat)
    requires d <= |m.dims|
    ensures |Shape(MemberInitializer(m, d))| == |m.dims| - d
    ensures forall k | d <= k < |m.dims| :: Shape(MemberInitializer(m, d))[k - d] == DefaultExtent(m.dims, d, k)
    decreases |m.dims| - d
  {
    if d < |m.dims| {
      match m.dims[d]
      case Var(_) =>
        forall k | d <= k < |m.dims| ensures DefaultExtent(m.dims, d, k) == 0 {
          assert !m.dims[d].Const?;
        }
      case Const(n) =>
        InitializerShape(m, d + 1);
        var sh := Shape(MemberInitializer(m, d));
        assert sh == [n] + Shape(MemberInitializer(m, d + 1));
        forall k | d < k < |m.dims| ensures sh[k - d] == DefaultExtent(m.dims, d, k) {
          assert sh[k - d] == Shape(MemberInitializer(m, d + 1))[k - (d + 1)];
          assert Shape(MemberInitializer(m, d + 1))[k - (d + 1)] == DefaultExtent(m.dims, d + 1, k);
          if FixedThrough(m.dims, d + 1, k) {
            forall j | d <= j <= k ensures m.dims[j].Const? {
              if j > d { assert d + 1 <= j <= k; }
            }
          }
          assert FixedThrough(m.dims, d, k) == FixedThrough(m.dims, d + 1, k);
        }
    }
  }

  /** The innermost element is the member type's zero exactly when no
      dimension from d on is variable; otherwise the value is an empty array
      whose element type is the Julia name of the member type. */
  lemma {:induction false} InitializerElement(m: Member, d: nat)
    requires d <= |m.dims|
    ensures Element(MemberInitializer(m, d)).Some? <==> forall j | d <= j < |m.dims| :: m.dims[j].Const?
    ensures Element(MemberInitializer(m, d)).Some? ==> Element(MemberInitializer(m, d)).value == LeafInit(m.typeName)
    ensures Element(MemberInitializer(m, d)).None? ==> Innermost(MemberInitializer(m, d)) == EmptyArray(MapTypeName(m.typeName), |m.dims| - FirstVar(m.dims, d))
    decreases |m.dims| - d
  {
    if d < |m.dims| {
      match m.dims[d]
      case Var(_) =>
      case Const(n) =>
        InitializerElement(m, d + 1);
    }
  }

  /** The node where the recursion stopped. */
  function Innermost(i: Init): Init
  {
    match i
    case Comprehension(_, _, b) => Innermost(b)
    case _ => i
  }

  /** Index of the first variable dimension at or after d (|dims| if none). */
  function FirstVar(dims: seq<Dimension>, d: nat): (r: nat)
    requires d <= |dims|
    ensures d <= r <= |dims|
    ensures forall j | d <= j < r :: dims[j].Const?
    ensures r < |dims| ==> dims[r].Var?
    decreases |dims| - d
  {
    if d == |dims| || dims[d].Var? then d else FirstVar(dims, d + 1)
  }

  /** The comprehension indices count up from d: each level names its own
      dimension, so nested comprehensions never reuse a loop variable. */
  lemma {:induction false} ComprehensionIndices(m: Member, d: nat)
    requires d <= |m.dims|
    ensures Indices(MemberInitializer(m, d)) == seq(FirstVar(m.dims, d) - d, j => d + j)
    decreases |m.dims| - d
  {
    if d < |m.dims| && m.dims[d].Const? {
      ComprehensionIndices(m, d + 1);
    }
  }

  /** The loop-variable indices of the nested comprehensions, outermost first. */
  function Indices(i: Init): seq<nat>
  {
    match i
    case Comprehension(x, _, b) => [x] + Indices(b)
    case _ => []
  }

  /** The initialiser of a constant: a fixed-point constant's literal is
      bit-reinterpreted as the constant's Julia type; any other literal is
      used as written. */
  datatype ConstInit = Reinterpret(juliaType: string, bits: string) | Verbatim(text: string)

  function ConstantInitializer(c: Constant): (r: ConstInit)
    ensures r.Reinterpret? <==> c.fixedPoint
    ensures r.Reinterpret? ==> r.juliaType == MapTypeName(c.typeName) && r.bits == c.valstr
    ensures r.Verbatim? ==> r.text == c.valstr
  {
    if c.fixedPoint then Reinterpret(MapTypeName(c.typeName), c.valstr) else Verbatim(c.valstr)
  }

  /** The constant block: one initialiser per constant, in declaration order,
      each declared with its Julia type. */
  function ConstantBlock(cs: seq<Constant>): (r: seq<(string, string, ConstInit)>)
    ensures |r| == |cs|
    ensures forall i | 0 <= i < |cs| :: r[i] == (cs[i].name, MapTypeName(cs[i].typeName), ConstantInitializer(cs[i]))
  {
    if cs == [] then [] else [(cs[0].name, MapTypeName(cs[0].typeName), ConstantInitializer(cs[0]))] + ConstantBlock(cs[1..])
  }
}

=== FILE: names.dfy ===
/** Name helpers of the Julia emitter: zcm type names to Julia type names,
    and package paths to directory paths. */
module Names {
  import opened Schema

  /** The Julia storage type of each primitive. */
  function JuliaName(p: Primitive): string
  {
    match p
    case Int8 => "Int8"
    case Int16 => "Int16"
    case Int32 => "Int32"
    case Int64 => "Int64"
    case Byte => "UInt8"
    case Float => "Float32"
    case Double => "Float64"
    case Str => "String"
    case Boolean => "Bool"
  }

  /** mapTypeName: a primitive's Julia name; any other (struct) name unchanged. */
  function MapTypeName(t: string): (r: string)
  {
    match PrimitiveOf(t)
    case Some(p) => JuliaName(p)
    case None => t
  }

  /** MapTypeName rewrites exactly the nine primitive names, each to a
      distinct Julia name, and is the identity on every other name. */
  lemma MapTypeNameRewritesExactlyPrimitives(t: string)
    ensures MapTypeName(t) != t <==> IsPrimitiveType(t)
    ensures !IsPrimitiveType(t) ==> MapTypeName(t) == t
  {
    match PrimitiveOf(t)
    case Some(p) =>
      assert t == PrimitiveName(p);
      assert JuliaName(p) != PrimitiveName(p) by { JuliaNameDiffers(p); }
    case None =>
  }

  lemma JuliaNameDiffers(p: Primitive)
    ensures JuliaName(p) != PrimitiveName(p)
  {
    match p
    case Int8 => assert JuliaName(p)[0] == 'I' != PrimitiveName(p)[0];
    case Int16 => assert JuliaName(p)[0] == 'I' != PrimitiveName(p)[0];
    case Int32 => assert JuliaName(p)[0] == 'I' != PrimitiveName(p)[0];
    case Int64 => assert JuliaName(p)[0] == 'I' != PrimitiveName(p)[0];
    case Byte => assert JuliaName(p)[0] == 'U' != PrimitiveName(p)[0];
    case Float => assert JuliaName(p)[0] == 'F' != PrimitiveName(p)[0];
    case Double => assert JuliaName(p)[0] == 'F' != PrimitiveName(p)[0];
    case Str => assert JuliaName(p)[0] == 'S' != PrimitiveName(p)[0];
    case Boolean => assert JuliaName(p)[0] == 'B' != PrimitiveName(p)[0];
  }

  /** Distinct primitive names map to distinct Julia names. */
  lemma MapTypeNameInjectiveOnPrimitives(a: string, b: string)
    requires IsPrimitiveType(a) && IsPrimitiveType(b) && a != b
    ensures MapTypeName(a) != MapTypeName(b)
  {
    var pa, pb := PrimitiveOf(a).value, PrimitiveOf(b).value;
    assert pa != pb;
    assert JuliaName(pa) != JuliaName(pb);
  }

  /** dotsToSlashes: every '.' of a package path becomes '/'. */
  function DotsToSlashes(s: string): (r: string)
    ensures |r| == |s|
    ensures forall i | 0 <= i < |s| :: r[i] == (if s[i] == '.' then '/' else s[i])
  {
    if s == [] then [] else [if s[0] == '.' then '/' else s[0]] + DotsToSlashes(s[1..])
  }

  /** No '.' survives, and every other character stays in place. */
  lemma DotsToSlashesNoDots(s: string)
    ensures '.' !in DotsToSlashes(s)
    ensures forall i | 0 <= i < |s| && s[i] != '.' :: DotsToSlashes(s)[i] == s[i]
  {
    var r := DotsToSlashes(s);
    forall i | 0 <= i < |r| ensures r[i] != '.' { }
  }

  /** Rewriting an already rewritten path changes nothing. */
  lemma DotsToSlashesIdempotent(s: string)
    ensures DotsToSlashes(DotsToSlashes(s)) == DotsToSlashes(s)
  {
    DotsToSlashesNoDots(s);
    var r := DotsToSlashes(s);
    var rr := DotsToSlashes(r);
    forall i | 0 <= i < |r| ensures rr[i] == r[i] {
      assert r[i] in r;
    }
  }
}

=== FILE: plan.dfy ===
/** The encode and decode procedures the emitter writes for one struct, as
    data: per member a tree of loops over the dimensions whose leaves are
    single reads/writes or one bulk read/write of the innermost array. */
module Plan {
  import opened Schema

  /** A loop bound or bulk length: a literal extent, or `self.<sibling>`. */
  datatype Bound = Fixed(n: nat) | Field(sibling: string)

  function BoundOf(d: Dimension): Bound
  {
    match d
    case Const(n) => Fixed(n)
    case Var(x) => Field(x)
  }

  /** How one scalar is written or read. TextRule: a 4-byte length (including
      the terminator), the bytes, a terminator. RawRule: the memory image as
      is. SwapRule: through hton/ntoh. NestedRule: the member struct's own
      `_encode_one` / `_decode_one`. */
  datatype Rule = TextRule | RawRule(p: Primitive) | SwapRule(p: Primitive) | NestedRule(typeName: string)

  /** `self.<member>[i0]...[i(depth-1)]`. */
  datatype Access = Access(member: string, depth: nat)

  datatype EncOp =
    | Write(rule: Rule, at: Access)
    | BulkWrite(p: Primitive, swap: bool, at: Access, len: Bound)
    | EncLoop(index: nat, bound: Bound, body: EncOp)

  /** The byte count of a bulk read: fixed at generation time, or the
      sibling's runtime value times the element width. */
  datatype ByteCount = FixedBytes(n: nat) | FieldTimes(sibling: string, width: nat)

  datatype DecOp =
    | Read(rule: Rule)
    | BulkRead(p: Primitive, swap: bool, count: ByteCount)
    | DecLoop(index: nat, bound: Bound, body: DecOp)

  /** One-byte primitives: the decoder reads them without ntoh. */
  predicate SingleByte(p: Primitive)
  {
    p == Byte || p == Boolean || p == Int8
  }

  lemma SingleByteIsWidthOne(p: Primitive)
    ensures SingleByte(p) <==> p != Str && TypeSize(p) == 1
  {
  }

  /** The innermost array of a member is handled in bulk exactly when its
      element type is primitive and not a string. */
  predicate IsBulk(tn: string)
  {
    IsPrimitiveType(tn) && tn != "string"
  }

  /** emitEncodeSingleMember's case analysis. */
  function EncodeRule(tn: string): Rule
  {
    match PrimitiveOf(tn)
    case Some(Str) => TextRule
    case Some(Boolean) => RawRule(Boolean)
    case Some(p) => SwapRule(p)
    case None => NestedRule(tn)
  }

  /** emitDecodeSingleMember's case analysis. */
  function DecodeRule(tn: string): Rule
  {
    match PrimitiveOf(tn)
    case Some(Str) => TextRule
    case Some(p) => if SingleByte(p) then RawRule(p) else SwapRule(p)
    case None => NestedRule(tn)
  }

  /** The two case analyses pick the same rule except for byte and int8,
      which the encoder passes through hton and the decoder reads raw; both
      are one byte wide, where hton changes nothing. Strings and composites
      get the text and nested rules on both sides, and every multi-byte
      primitive is swapped on both sides. */
  lemma EncodeDecodeRulesAgree(tn: string)
    ensures EncodeRule(tn) != DecodeRule(tn) ==>
      exists p :: EncodeRule(tn) == SwapRule(p) && DecodeRule(tn) == RawRule(p) && p != Str && TypeSize(p) == 1
    ensures EncodeRule(tn) == TextRule <==> tn == "string"
    ensures EncodeRule(tn) == NestedRule(tn) <==> !IsPrimitiveType(tn)
    ensures DecodeRule(tn).SwapRule? <==> IsPrimitiveType(tn) && tn != "string" && TypeSize(PrimitiveOf(tn).value) > 1
  {
    match PrimitiveOf(tn)
    case Some(p) =>
      if EncodeRule(tn) != DecodeRule(tn) {
        assert EncodeRule(tn) == SwapRule(p) && DecodeRule(tn) == RawRule(p);
      }
    case None =>
  }

  /** emitEncodeListMember: the innermost array of a bulk member. Every
      element but booleans goes through hton, then the first len elements
      are written. Any other element type is a precondition violation. */
  function ListWrite(tn: string, at: Access, lastDim: Dimension): EncOp
    requires IsBulk(tn)
  {
    var p := PrimitiveOf(tn).value;
    BulkWrite(p, p != Boolean, at, BoundOf(lastDim))
  }

  /** emitDecodeListMember: len * size bytes in one read, each element
      passed through ntoh unless it is one byte wide. */
  function ListRead(tn: string, lastDim: Dimension): DecOp
    requires IsBulk(tn)
  {
    var p := PrimitiveOf(tn).value;
    var count := match lastDim
      case Const(n) => FixedBytes(n * TypeSize(p))
      case Var(x) => FieldTimes(x, TypeSize(p));
    BulkRead(p, !SingleByte(p), count)
  }

  /** The encode plan of member m from dimension k inwards. */
  function EncodeFrom(m: Member, k: nat): EncOp
    requires k < |m.dims|
    decreases |m.dims| - k
  {
    if k == |m.dims| - 1 then
      if IsBulk(m.typeName) then ListWrite(m.typeName, Access(m.name, k), m.dims[k])
      else EncLoop(k, BoundOf(m.dims[k]), Write(EncodeRule(m.typeName), Access(m.name, k + 1)))
    else EncLoop(k, BoundOf(m.dims[k]), EncodeFrom(m, k + 1))
  }

  /** The decode plan of member m from dimension k inwards. */
  function DecodeFrom(m: Member, k: nat): DecOp
    requires k < |m.dims|
    decreases |m.dims| - k
  {
    if k == |m.dims| - 1 then
      if IsBulk(m.typeName) then ListRead(m.typeName, m.dims[k])
      else DecLoop(k, BoundOf(m.dims[k]), Read(DecodeRule(m.typeName)))
    else DecLoop(k, BoundOf(m.dims[k]), DecodeFrom(m, k + 1))
  }

  function EncodeMember(m: Member): EncOp
  {
    if m.dims == [] then Write(EncodeRule(m.typeName), Access(m.name, 0)) else EncodeFrom(m, 0)
  }

  function DecodeMember(m: Member): DecOp
  {
    if m.dims == [] then Read(DecodeRule(m.typeName)) else DecodeFrom(m, 0)
  }

  /** emitEncodeOne for one member: loop headers for every dimension but
      the last, outermost first, growing the accessor; then the innermost
      level; the loops close around it. */
  method EmitEncodeMember(m: Member) returns (op: EncOp)
    ensures op == EncodeMember(m)
  {
    if |m.dims| == 0 {
      return Write(EncodeRule(m.typeName), Access(m.name, 0));
    }
    var at := Access(m.name, 0);
    var headers: seq<Bound> := [];
    var n := 0;
    while n < |m.dims| - 1
      invariant 0 <= n <= |m.dims| - 1
      invariant at == Access(m.name, n)
      invariant |headers| == n && forall j | 0 <= j < n :: headers[j] == BoundOf(m.dims[j])
    {
      at := Access(m.name, at.depth + 1);
      headers := headers + [BoundOf(m.dims[n])];
      n := n + 1;
    }
    var last := m.dims[|m.dims| - 1];
    if IsBulk(m.typeName) {
      op := ListWrite(m.typeName, at, last);
    } else {
      op := EncLoop(n, BoundOf(last), Write(EncodeRule(m.typeName), Access(m.name, at.depth + 1)));
    }
    while n > 0
      invariant 0 <= n <= |m.dims| - 1
      invariant op == EncodeFrom(m, n)
    {
      n := n - 1;
      op := EncLoop(n, headers[n], op);
    }
  }

  /** emitDecodeOne for one member, in the same shape. */
  method EmitDecodeMember(m: Member) returns (op: DecOp)
    ensures op == DecodeMember(m)
  {
    if |m.dims| == 0 {
      return Read(DecodeRule(m.typeName));
    }
    var n := |m.dims| - 1;
    var last := m.dims[n];
    if IsBulk(m.typeName) {
      op := ListRead(m.typeName, last);
    } else {
      op := DecLoop(n, BoundOf(last), Read(DecodeRule(m.typeName)));
    }
    while n > 0
      invariant 0 <= n <= |m.dims| - 1
      invariant op == DecodeFrom(m, n)
    {
      n := n - 1;
      op := DecLoop(n, BoundOf(m.dims[n]), op);
    }
  }

  /** emitEncodeOne: one plan per member, in declaration order (an empty
      struct gets an empty body). */
  method EmitEncodeOne(s: Struct) returns (ops: seq<EncOp>)
    ensures |ops| == |s.members|
    ensures forall i | 0 <= i < |s.members| :: ops[i] == EncodeMember(s.members[i])
  {
    ops := [];
    var i := 0;
    while i < |s.members|
      invariant 0 <= i <= |s.members| && |ops| == i
      invariant forall j | 0 <= j < i :: ops[j] == EncodeMember(s.members[j])
    {
      var op := EmitEncodeMember(s.members[i]);
      ops := ops + [op];
      i := i + 1;
    }
  }

  /** emitDecodeOne: one plan per member, in declaration order. */
  method EmitDecodeOne(s: Struct) returns (ops: seq<DecOp>)
    ensures |ops| == |s.members|
    ensures forall i | 0 <= i < |s.members| :: ops[i] == DecodeMember(s.members[i])
  {
    ops := [];
    var i := 0;
    while i < |s.members|
      invariant 0 <= i <= |s.members| && |ops| == i
      invariant forall j | 0 <= j < i :: ops[j] == DecodeMember(s.members[j])
    {
      var op := EmitDecodeMember(s.members[i]);
      ops := ops + [op];
      i := i + 1;
    }
  }

  // Reading a plan back: its loop bounds outermost first, and its leaf.

  function EncBounds(op: EncOp): seq<Bound>
  {
    match op
    case Write(_, _) => []
    case BulkWrite(_, _, _, len) => [len]
    case EncLoop(_, b, body) => [b] + EncBounds(body)
  }

  function EncLeaf(op: EncOp): EncOp
  {
    match op
    case EncLoop(_, _, body) => EncLeaf(body)
    case _ => op
  }

  /** Loop k binds index i(k), nested in order, and the leaf's accessor
      indexes with exactly the enclosing loop indices. */
  predicate EncScoped(op: EncOp, depth: nat)
  {
    match op
    case Write(_, at) => at.depth == depth
    case BulkWrite(_, _, at, _) => at.depth == depth
    case EncLoop(k, _, body) => k == depth && EncScoped(body, depth + 1)
  }

  function DecBounds(op: DecOp): seq<Bound>
  {
    match op
    case Read(_) => []
    case BulkRead(_, _, _) => []
    case DecLoop(_, b, body) => [b] + DecBounds(body)
  }

  function DecLeaf(op: DecOp): DecOp
  {
    match op
    case DecLoop(_, _, body) => DecLeaf(body)
    case _ => op
  }

  function BoundsOf(ds: seq<Dimension>): seq<Bound>
  {
    if ds == [] then [] else [BoundOf(ds[0])] + BoundsOf(ds[1..])
  }

  lemma {:induction false} EncodeFromShape(m: Member, k: nat)
    requires k < |m.dims|
    ensures EncBounds(EncodeFrom(m, k)) == BoundsOf(m.dims[k..])
    ensures EncScoped(EncodeFrom(m, k), k)
    ensures IsBulk(m.typeName) ==> EncLeaf(EncodeFrom(m, k)) == ListWrite(m.typeName, Access(m.name, |m.dims| - 1), m.dims[|m.dims| - 1])
    ensures !IsBulk(m.typeName) ==> EncLeaf(EncodeFrom(m, k)) == Write(EncodeRule(m.typeName), Access(m.name, |m.dims|))
    decreases |m.dims| - k
  {
    assert m.dims[k..][1..] == m.dims[k + 1..];
    if k < |m.dims| - 1 {
      EncodeFromShape(m, k + 1);
    }
  }

  /** The encode plan of a member has one bound per dimension, in order:
      a loop for every dimension but the last, and for the last one either
      the bulk length (primitive non-string elements) or one more loop
      around a single write. A scalar member gets a single write. */
  lemma EncodeMemberShape(m: Member)
    ensures EncBounds(EncodeMember(m)) == BoundsOf(m.dims)
    ensures EncScoped(EncodeMember(m), 0)
    ensures m.dims == [] ==> EncodeMember(m) == Write(EncodeRule(m.typeName), Access(m.name, 0))
    ensures m.dims != [] && IsBulk(m.typeName) ==>
      EncLeaf(EncodeMember(m)).BulkWrite? && EncLeaf(EncodeMember(m)).at.depth == |m.dims| - 1
    ensures m.dims != [] && !IsBulk(m.typeName) ==>
      EncLeaf(EncodeMember(m)) == Write(EncodeRule(m.typeName), Access(m.name, |m.dims|))
  {
    if m.dims != [] {
      EncodeFromShape(m, 0);
      assert m.dims[0..] == m.dims;
    }
  }

  lemma {:induction false} DecodeFromShape(m: Member, k: nat)
    requires k < |m.dims|
    ensures IsBulk(m.typeName) ==>
      DecBounds(DecodeFrom(m, k)) == BoundsOf(m.dims[k..|m.dims| - 1]) &&
      DecLeaf(DecodeFrom(m, k)) == ListRead(m.typeName, m.dims[|m.dims| - 1])
    ensures !IsBulk(m.typeName) ==>
      DecBounds(DecodeFrom(m, k)) == BoundsOf(m.dims[k..]) &&
      DecLeaf(DecodeFrom(m, k)) == Read(DecodeRule(m.typeName))
    decreases |m.dims| - k
  {
    assert m.dims[k..][1..] == m.dims[k + 1..];
    if k < |m.dims| - 1 {
      assert m.dims[k..|m.dims| - 1][1..] == m.dims[k + 1..|m.dims| - 1];
      DecodeFromShape(m, k + 1);
    } else {
      assert m.dims[k..|m.dims| - 1] == [];
    }
  }

  /** The decode plan mirrors the encode plan: the same loop bounds, and
      for a bulk member a read of extent times element-width bytes of the
      last dimension. */
  lemma DecodeMemberShape(m: Member)
    ensures m.dims == [] ==> DecodeMember(m) == Read(DecodeRule(m.typeName))
    ensures m.dims != [] && !IsBulk(m.typeName) ==>
      DecBounds(DecodeMember(m)) == BoundsOf(m.dims) && DecLeaf(DecodeMember(m)) == Read(DecodeRule(m.typeName))
    ensures m.dims != [] && IsBulk(m.typeName) ==>
      DecBounds(DecodeMember(m)) == BoundsOf(m.dims[..|m.dims| - 1]) &&
      DecLeaf(DecodeMember(m)).BulkRead? &&
      DecLeaf(DecodeMember(m)).count ==
        match m.dims[|m.dims| - 1]
        case Const(n) => FixedBytes(n * TypeSize(PrimitiveOf(m.typeName).value))
        case Var(x) => FieldTimes(x, TypeSize(PrimitiveOf(m.typeName).value))
  {
    if m.dims != [] {
      DecodeFromShape(m, 0);
      assert m.dims[0..] == m.dims;
      assert m.dims[0..|m.dims| - 1] == m.dims[..|m.dims| - 1];
    }
  }
}

=== FILE: roundtrip.dfy ===
/** Decoding what the generated encoder wrote gives the value back, with
    each string carrying the terminator byte its length prefix counts. */
module RoundTrip {
  import opened Schema
  import opened Bytes
  import opened Hashing
  import opened Plan
  import opened Wire

  /** The value the decoder builds from the encoding of v: every string
      gains its terminator. */
  function Terminated(v: Value): Value
  {
    match v
    case Bits(_) => v
    case Text(b) => Text(b + [0])
    case List(items) => List(seq(|items|, j requires 0 <= j < |items| => Terminated(items[j])))
    case Record(tn, fs) => Record(tn, seq(|fs|, j requires 0 <= j < |fs| => Terminated(fs[j])))
  }

  function TerminatedAll(vs: seq<Value>): (r: seq<Value>)
    ensures |r| == |vs| && forall j | 0 <= j < |vs| :: r[j] == Terminated(vs[j])
  {
    seq(|vs|, j requires 0 <= j < |vs| => Terminated(vs[j]))
  }

  /** No string anywhere inside v. */
  predicate NoText(v: Value)
  {
    match v
    case Bits(_) => true
    case Text(_) => false
    case List(items) => forall j | 0 <= j < |items| :: NoText(items[j])
    case Record(_, fs) => forall j | 0 <= j < |fs| :: NoText(fs[j])
  }

  lemma {:induction false} TerminatedWithoutText(v: Value)
    requires NoText(v)
    ensures Terminated(v) == v
  {
    match v
    case Bits(_) =>
    case Text(_) =>
    case List(items) =>
      forall j | 0 <= j < |items| ensures Terminated(items[j]) == items[j] {
        TerminatedWithoutText(items[j]);
      }
    case Record(_, fs) =>
      forall j | 0 <= j < |fs| ensures Terminated(fs[j]) == fs[j] {
        TerminatedWithoutText(fs[j]);
      }
  }

  // ---------------------------------------------------------------------
  // Well-typed values

  /** v is an instance of struct tn whose nesting is at most fuel deep,
      every member value fitting its declared type and dimensions. */
  predicate RecordTyped(g: Graph, tn: string, v: Value, fuel: nat)
    decreases v, 0, 0
  {
    tn in g && fuel > 0 && v.Record? && v.typeName == tn && |v.fields| == |g[tn].members| &&
    forall i | 0 <= i < |v.fields| ::
      Typed(g, g[tn], v.fields, g[tn].members[i].dims, g[tn].members[i].typeName, v.fields[i], fuel - 1)
  }

  /** v fits the element type tn: a string short enough for its 32-bit
      length prefix, a bit pattern of the primitive's width, or a struct. */
  predicate LeafTyped(g: Graph, tn: string, v: Value, fuel: nat)
    decreases v, 1, 0
  {
    match PrimitiveOf(tn)
    case Some(p) =>
      if p == Str then v.Text? && |v.bytes| + 1 < Pow256(LengthSize)
      else v.Bits? && v.n < Pow256(TypeSize(p))
    case None => RecordTyped(g, tn, v, fuel)
  }

  /** v fits dimensions dims of element type tn: at each level an array of
      exactly the extent the bound has, given the struct's member values env. */
  predicate Typed(g: Graph, s: Struct, env: seq<Value>, dims: seq<Dimension>, tn: string, v: Value, fuel: nat)
    decreases v, 2, |dims|
  {
    if dims == [] then LeafTyped(g, tn, v, fuel)
    else
      Extent(s, env, BoundOf(dims[0])).Ok? && v.List? &&
      |v.items| == Extent(s, env, BoundOf(dims[0])).value &&
      forall j | 0 <= j < |v.items| :: Typed(g, s, env, dims[1..], tn, v.items[j], fuel)
  }

  // ---------------------------------------------------------------------
  // Words and extents

  /** Every scalar goes on the wire in network order, whatever the host:
      through hton, or unswapped when it is one byte wide. Reading it back
      through ntoh, or unswapped when one byte wide, gives the value. */
  lemma PutGetWord(x: nat, w: nat, es: bool, ds: bool, host: ByteOrder)
    requires x < Pow256(w) && (es || w == 1) && (ds || w == 1)
    ensures PutWord(x, w, es, host) == ToBE(x, w)
    ensures GetWord(ToBE(x, w), ds, host) == x
  {
    if es {
      WriteHton(x, w, host);
    } else {
      assert ToBE(x, 1) == [x] && ToLE(x, 1) == [x];
    }
    if ds {
      ReadNtoh(ToBE(x, w), host);
      FromToBE(x, w);
    } else {
      assert ToBE(x, 1) == [x];
      assert FromLE([x]) == x && FromBE([x]) == x;
    }
  }

  lemma MulMod(n: nat, w: nat)
    requires w in {1, 2, 4, 8}
    ensures (n * w) % w == 0
  {
    if w == 1 {
    } else if w == 2 {
      assert n * w == 2 * n;
    } else if w == 4 {
      assert n * w == 4 * n;
    } else {
      assert n * w == 8 * n;
    }
  }

  /** A bulk write of well-formed elements succeeds, takes |xs| * w bytes,
      and those bytes read back as the same elements. */
  lemma {:induction false} BulkRoundTrip(xs: seq<Value>, w: nat, es: bool, ds: bool, host: ByteOrder)
    requires w > 0 && (es || w == 1) && (ds || w == 1)
    requires forall j | 0 <= j < |xs| :: xs[j].Bits? && xs[j].n < Pow256(w)
    ensures BulkBytes(xs, w, es, host).Ok?
    ensures |BulkBytes(xs, w, es, host).value| == |xs| * w
    ensures Words(BulkBytes(xs, w, es, host).value, w, ds, host) == xs
  {
    if xs != [] {
      BulkRoundTrip(xs[1..], w, es, ds, host);
      PutGetWord(xs[0].n, w, es, ds, host);
      var tail := BulkBytes(xs[1..], w, es, host).value;
      BulkBytesCons(xs, w, es, host, tail);
      WordsCons(ToBE(xs[0].n, w), tail, w, ds, host);
      CountCons(|xs|, w);
      assert xs == [xs[0]] + xs[1..];
    }
  }

  lemma BulkBytesCons(xs: seq<Value>, w: nat, swap: bool, host: ByteOrder, tail: seq<byte>)
    requires xs != [] && xs[0].Bits? && xs[0].n < Pow256(w) && BulkBytes(xs[1..], w, swap, host) == Ok(tail)
    ensures BulkBytes(xs, w, swap, host) == Ok(PutWord(xs[0].n, w, swap, host) + tail)
  {
  }

  lemma WordsCons(head: seq<byte>, tail: seq<byte>, w: nat, swap: bool, host: ByteOrder)
    requires w > 0 && |head| == w
    ensures Words(head + tail, w, swap, host) == [Bits(GetWord(head, swap, host))] + Words(tail, w, swap, host)
  {
    var b := head + tail;
    assert b[..w] == head && b[w..] == tail;
  }

  lemma CountCons(n: nat, w: nat)
    requires n > 0
    ensures n * w == w + (n - 1) * w
  {
  }

  lemma SignedExtentTerminated(tn: string, v: Value)
    ensures SignedExtent(tn, Terminated(v)) == SignedExtent(tn, v)
  {
  }

  /** A bound naming an earlier sibling has the same value on the encoder's
      side (all member values) and on the decoder's (those decoded so far). */
  lemma ExtentOnDecodedPrefix(s: Struct, fields: seq<Value>, i: nat, d: Dimension)
    requires i < |s.members| && i <= |fields| && DimsWellFormed(s.members, i) && d in s.members[i].dims
    ensures Extent(s, fields, BoundOf(d)) == Extent(s, TerminatedAll(fields[..i]), BoundOf(d))
  {
    if d.Var? {
      var j := MemberIndex(s.members, d.sibling).value;
      SignedExtentTerminated(s.members[j].typeName, fields[j]);
    }
  }

  // ---------------------------------------------------------------------
  // The round trip, following the encoder's and decoder's recursion

  /** The body of the loop at dimension k. */
  function EncBody(m: Member, k: nat): EncOp
    requires k < |m.dims|
  {
    if k == |m.dims| - 1 then Write(EncodeRule(m.typeName), Access(m.name, k + 1)) else EncodeFrom(m, k + 1)
  }

  function DecBody(m: Member, k: nat): DecOp
    requires k < |m.dims|
  {
    if k == |m.dims| - 1 then Read(DecodeRule(m.typeName)) else DecodeFrom(m, k + 1)
  }

  /** A struct instance. */
  lemma {:induction false} RecordRoundTrip(g: Graph, host: ByteOrder, tn: string, v: Value, fuel: nat, rest: seq<byte>)
    requires GraphWellFormed(g) && RecordTyped(g, tn, v, fuel)
    ensures EncodeRecord(g, host, tn, v).Ok?
    ensures DecodeRecord(g, host, tn, EncodeRecord(g, host, tn, v).value + rest, fuel) == Ok((Terminated(v), rest))
    decreases v, 1, 0, 0, 0
  {
    assert v.fields[..0] == [];
    assert StructWellFormed(g[tn]);
    FieldsRoundTrip(g, host, g[tn], v, 0, fuel - 1, rest);
    assert TerminatedAll(v.fields) == Terminated(v).fields;
  }

  /** Members i.. of a struct instance. */
  lemma {:induction false} FieldsRoundTrip(g: Graph, host: ByteOrder, s: Struct, r: Value, i: nat, fuel: nat, rest: seq<byte>)
    requires GraphWellFormed(g) && StructWellFormed(s) && r.Record? && |r.fields| == |s.members| && i <= |r.fields|
    requires forall t | i <= t < |r.fields| ::
      Typed(g, s, r.fields, s.members[t].dims, s.members[t].typeName, r.fields[t], fuel)
    ensures EncodeFields(g, host, s, r, i).Ok?
    ensures DecodeFields(g, host, s, TerminatedAll(r.fields[..i]), EncodeFields(g, host, s, r, i).value + rest, fuel)
         == Ok((TerminatedAll(r.fields), rest))
    decreases r, 0, |r.fields| - i, 1, 0
  {
    if i == |r.fields| {
      FieldsBase(g, host, s, r, fuel, rest);
    } else {
      FieldsRoundTrip(g, host, s, r, i + 1, fuel, rest);
      FieldsCons(g, host, s, r, i, fuel, rest);
    }
  }

  /** Member i in front of members i+1.., given the round trip of the latter. */
  lemma {:induction false} FieldsCons(g: Graph, host: ByteOrder, s: Struct, r: Value, i: nat, fuel: nat, rest: seq<byte>)
    requires GraphWellFormed(g) && r.Record? && |r.fields| == |s.members| && i < |r.fields| && DimsWellFormed(s.members, i)
    requires Typed(g, s, r.fields, s.members[i].dims, s.members[i].typeName, r.fields[i], fuel)
    requires EncodeFields(g, host, s, r, i + 1).Ok?
    requires DecodeFields(g, host, s, TerminatedAll(r.fields[..i + 1]), EncodeFields(g, host, s, r, i + 1).value + rest, fuel)
          == Ok((TerminatedAll(r.fields), rest))
    ensures EncodeFields(g, host, s, r, i).Ok?
    ensures DecodeFields(g, host, s, TerminatedAll(r.fields[..i]), EncodeFields(g, host, s, r, i).value + rest, fuel)
         == Ok((TerminatedAll(r.fields), rest))
    decreases r, 0, |r.fields| - i, 0, 0
  {
    var tail := EncodeFields(g, host, s, r, i + 1).value;
    MemberValueRoundTrip(g, host, s, r.fields, i, fuel, tail + rest);
    var head := Exec(g, host, s, r.fields, EncodeMember(s.members[i]), r.fields[i]).value;
    FieldsStep(g, host, s, r, i, fuel, rest, head, tail);
  }

  /** No members left: nothing written, nothing read. */
  lemma FieldsBase(g: Graph, host: ByteOrder, s: Struct, r: Value, fuel: nat, rest: seq<byte>)
    requires r.Record? && |r.fields| == |s.members|
    ensures EncodeFields(g, host, s, r, |r.fields|) == Ok([])
    ensures DecodeFields(g, host, s, TerminatedAll(r.fields[..|r.fields|]), [] + rest, fuel) == Ok((TerminatedAll(r.fields), rest))
  {
    assert r.fields[..|r.fields|] == r.fields;
    assert [] + rest == rest;
  }

  /** Assembles member i with members i+1.. on both sides. */
  lemma FieldsStep(g: Graph, host: ByteOrder, s: Struct, r: Value, i: nat, fuel: nat, rest: seq<byte>, head: seq<byte>, tail: seq<byte>)
    requires r.Record? && |r.fields| == |s.members| && i < |s.members|
    requires Exec(g, host, s, r.fields, EncodeMember(s.members[i]), r.fields[i]) == Ok(head)
    requires EncodeFields(g, host, s, r, i + 1) == Ok(tail)
    requires Run(g, host, s, TerminatedAll(r.fields[..i]), DecodeMember(s.members[i]), head + (tail + rest), fuel)
          == Ok((Terminated(r.fields[i]), tail + rest))
    requires DecodeFields(g, host, s, TerminatedAll(r.fields[..i + 1]), tail + rest, fuel) == Ok((TerminatedAll(r.fields), rest))
    ensures EncodeFields(g, host, s, r, i) == Ok(head + tail)
    ensures DecodeFields(g, host, s, TerminatedAll(r.fields[..i]), (head + tail) + rest, fuel) == Ok((TerminatedAll(r.fields), rest))
  {
    EncodeFieldsStep(g, host, s, r, i, head, tail);
    Associate(head, tail, rest);
    TerminatedSnoc(r.fields, i);
    DecodeFieldsStep(g, host, s, TerminatedAll(r.fields[..i]), head + (tail + rest), Terminated(r.fields[i]), tail + rest, fuel);
  }

  lemma Associate(a: seq<byte>, b: seq<byte>, c: seq<byte>)
    ensures (a + b) + c == a + (b + c)
  {
  }

  lemma TerminatedSnoc(vs: seq<Value>, i: nat)
    requires i < |vs|
    ensures TerminatedAll(vs[..i]) + [Terminated(vs[i])] == TerminatedAll(vs[..i + 1])
  {
  }

  /** One step of the member-by-member encode. */
  lemma EncodeFieldsStep(g: Graph, host: ByteOrder, s: Struct, r: Value, i: nat, head: seq<byte>, tail: seq<byte>)
    requires r.Record? && |r.fields| == |s.members| && i < |s.members|
    requires Exec(g, host, s, r.fields, EncodeMember(s.members[i]), r.fields[i]) == Ok(head)
    requires EncodeFields(g, host, s, r, i + 1) == Ok(tail)
    ensures EncodeFields(g, host, s, r, i) == Ok(head + tail)
  {
  }

  /** One step of the member-by-member decode. */
  lemma DecodeFieldsStep(g: Graph, host: ByteOrder, s: Struct, env: seq<Value>, input: seq<byte>, x: Value, after: seq<byte>, fuel: nat)
    requires |env| < |s.members|
    requires Run(g, host, s, env, DecodeMember(s.members[|env|]), input, fuel) == Ok((x, after))
    ensures DecodeFields(g, host, s, env, input, fuel) == DecodeFields(g, host, s, env + [x], after, fuel)
  {
  }

  /** The whole value of member i. */
  lemma {:induction false} MemberValueRoundTrip(g: Graph, host: ByteOrder, s: Struct, fields: seq<Value>, i: nat, fuel: nat, rest: seq<byte>)
    requires GraphWellFormed(g)
    requires i < |s.members| && i < |fields| && DimsWellFormed(s.members, i)
    requires Typed(g, s, fields, s.members[i].dims, s.members[i].typeName, fields[i], fuel)
    ensures Exec(g, host, s, fields, EncodeMember(s.members[i]), fields[i]).Ok?
    ensures Run(g, host, s, TerminatedAll(fields[..i]), DecodeMember(s.members[i]),
                Exec(g, host, s, fields, EncodeMember(s.members[i]), fields[i]).value + rest, fuel)
         == Ok((Terminated(fields[i]), rest))
    decreases fields[i], 3, 0, 0, 0
  {
    var m := s.members[i];
    if m.dims == [] {
      WriteRoundTrip(g, host, s, fields, TerminatedAll(fields[..i]), m.typeName, Access(m.name, 0), fields[i], fuel, rest);
    } else {
      assert m.dims[0..] == m.dims;
      MemberRoundTrip(g, host, s, fields, i, 0, fields[i], fuel, rest);
    }
  }

  /** A single write and the matching single read. */
  lemma {:induction false} WriteRoundTrip(g: Graph, host: ByteOrder, s: Struct, encEnv: seq<Value>, decEnv: seq<Value>, tn: string, at: Access, x: Value, fuel: nat, rest: seq<byte>)
    requires GraphWellFormed(g) && LeafTyped(g, tn, x, fuel)
    ensures Exec(g, host, s, encEnv, Write(EncodeRule(tn), at), x).Ok?
    ensures Run(g, host, s, decEnv, Read(DecodeRule(tn)), Exec(g, host, s, encEnv, Write(EncodeRule(tn), at), x).value + rest, fuel)
         == Ok((Terminated(x), rest))
    decreases x, 2, 0, 0, 1
  {
    ScalarRoundTrip(g, host, tn, x, fuel, rest);
  }

  /** One member value, or one element at dimension k and below. */
  lemma {:induction false} MemberRoundTrip(g: Graph, host: ByteOrder, s: Struct, fields: seq<Value>, i: nat, k: nat, w: Value, fuel: nat, rest: seq<byte>)
    requires GraphWellFormed(g)
    requires i < |s.members| && i < |fields| && DimsWellFormed(s.members, i)
    requires k < |s.members[i].dims|
    requires Typed(g, s, fields, s.members[i].dims[k..], s.members[i].typeName, w, fuel)
    ensures Exec(g, host, s, fields, EncodeFrom(s.members[i], k), w).Ok?
    ensures Run(g, host, s, TerminatedAll(fields[..i]), DecodeFrom(s.members[i], k),
                Exec(g, host, s, fields, EncodeFrom(s.members[i], k), w).value + rest, fuel)
         == Ok((Terminated(w), rest))
    decreases w, 2, |s.members[i].dims| - k, 1, 0
  {
    var m := s.members[i];
    if k == |m.dims| - 1 && IsBulk(m.typeName) {
      BulkMemberRoundTrip(g, host, s, fields, i, w, fuel, rest);
    } else {
      TypedLoop(g, s, fields, m.dims, k, m.typeName, w, fuel);
      EachRoundTrip(g, host, s, fields, i, k, w, 0, fuel, rest);
      LoopStep(g, host, s, fields, i, k, w, fuel, rest);
    }
  }

  /** A value typed at dimension k is an array of the bound's extent whose
      elements are typed at the dimensions below. */
  lemma TypedLoop(g: Graph, s: Struct, env: seq<Value>, dims: seq<Dimension>, k: nat, tn: string, w: Value, fuel: nat)
    requires k < |dims| && Typed(g, s, env, dims[k..], tn, w, fuel)
    ensures w.List? && Extent(s, env, BoundOf(dims[k])) == Ok(|w.items|)
    ensures forall t | 0 <= t < |w.items| :: Typed(g, s, env, dims[k + 1..], tn, w.items[t], fuel)
  {
    assert dims[k..][0] == dims[k] && dims[k..][1..] == dims[k + 1..];
  }

  /** A loop at dimension k from its iterations. */
  lemma LoopStep(g: Graph, host: ByteOrder, s: Struct, fields: seq<Value>, i: nat, k: nat, w: Value, fuel: nat, rest: seq<byte>)
    requires i < |s.members| && i < |fields| && DimsWellFormed(s.members, i)
    requires k < |s.members[i].dims| && !(k == |s.members[i].dims| - 1 && IsBulk(s.members[i].typeName))
    requires w.List? && Extent(s, fields, BoundOf(s.members[i].dims[k])) == Ok(|w.items|)
    requires ExecEach(g, host, s, fields, EncBody(s.members[i], k), w, 0, |w.items|).Ok?
    requires RunEach(g, host, s, TerminatedAll(fields[..i]), DecBody(s.members[i], k), |w.items| - 0,
                     ExecEach(g, host, s, fields, EncBody(s.members[i], k), w, 0, |w.items|).value + rest, fuel)
          == Ok((TerminatedAll(w.items[0..]), rest))
    ensures Exec(g, host, s, fields, EncodeFrom(s.members[i], k), w).Ok?
    ensures Run(g, host, s, TerminatedAll(fields[..i]), DecodeFrom(s.members[i], k),
                Exec(g, host, s, fields, EncodeFrom(s.members[i], k), w).value + rest, fuel)
         == Ok((Terminated(w), rest))
  {
    var m := s.members[i];
    var d := m.dims[k];
    assert d in m.dims;
    ExtentOnDecodedPrefix(s, fields, i, d);
    assert EncodeFrom(m, k) == EncLoop(k, BoundOf(d), EncBody(m, k));
    assert DecodeFrom(m, k) == DecLoop(k, BoundOf(d), DecBody(m, k));
    assert w.items[0..] == w.items;
  }

  /** The innermost array of a primitive non-string member, written and
      read in bulk. */
  lemma BulkMemberRoundTrip(g: Graph, host: ByteOrder, s: Struct, fields: seq<Value>, i: nat, w: Value, fuel: nat, rest: seq<byte>)
    requires i < |s.members| && i < |fields| && DimsWellFormed(s.members, i)
    requires |s.members[i].dims| > 0 && IsBulk(s.members[i].typeName)
    requires Typed(g, s, fields, s.members[i].dims[|s.members[i].dims| - 1..], s.members[i].typeName, w, fuel)
    ensures Exec(g, host, s, fields, EncodeFrom(s.members[i], |s.members[i].dims| - 1), w).Ok?
    ensures Run(g, host, s, TerminatedAll(fields[..i]), DecodeFrom(s.members[i], |s.members[i].dims| - 1),
                Exec(g, host, s, fields, EncodeFrom(s.members[i], |s.members[i].dims| - 1), w).value + rest, fuel)
         == Ok((Terminated(w), rest))
  {
    var m := s.members[i];
    var k := |m.dims| - 1;
    var d := m.dims[k];
    assert m.dims[k..] == [d];
    assert d in m.dims;
    BulkElementsFit(g, s, fields, d, m.typeName, w, fuel);
    ExtentOnDecodedPrefix(s, fields, i, d);
    var n := |w.items|;
    var p := PrimitiveOf(m.typeName).value;
    var W := TypeSize(p);
    BulkRoundTrip(w.items, W, p != Boolean, !SingleByte(p), host);
    BulkEncodeSide(g, host, s, fields, m, w, n);
    BulkDecodeSide(g, host, s, TerminatedAll(fields[..i]), m, n, BulkBytes(w.items, W, p != Boolean, host).value, rest, fuel);
  }

  /** The value of a bulk dimension is an array of the bound's length whose
      elements are numbers of the element width; no string lies inside. */
  lemma BulkElementsFit(g: Graph, s: Struct, env: seq<Value>, d: Dimension, tn: string, w: Value, fuel: nat)
    requires IsBulk(tn) && Typed(g, s, env, [d], tn, w, fuel)
    ensures w.List? && Extent(s, env, BoundOf(d)) == Ok(|w.items|)
    ensures forall j | 0 <= j < |w.items| :: w.items[j].Bits? && w.items[j].n < Pow256(TypeSize(PrimitiveOf(tn).value))
    ensures Terminated(w) == w
  {
    forall j | 0 <= j < |w.items| ensures w.items[j].Bits? && w.items[j].n < Pow256(TypeSize(PrimitiveOf(tn).value)) {
      assert [d][1..] == [];
      assert Typed(g, s, env, [], tn, w.items[j], fuel);
    }
    assert forall j | 0 <= j < |w.items| :: Terminated(w.items[j]) == w.items[j];
  }

  lemma BulkEncodeSide(g: Graph, host: ByteOrder, s: Struct, env: seq<Value>, m: Member, w: Value, n: nat)
    requires |m.dims| > 0 && IsBulk(m.typeName)
    requires Extent(s, env, BoundOf(m.dims[|m.dims| - 1])) == Ok(n) && w.List? && |w.items| == n
    ensures Exec(g, host, s, env, EncodeFrom(m, |m.dims| - 1), w)
         == BulkBytes(w.items, TypeSize(PrimitiveOf(m.typeName).value), PrimitiveOf(m.typeName).value != Boolean, host)
  {
    assert w.items[..n] == w.items;
  }

  lemma BulkDecodeSide(g: Graph, host: ByteOrder, s: Struct, env: seq<Value>, m: Member, n: nat, bytes: seq<byte>, rest: seq<byte>, fuel: nat)
    requires |m.dims| > 0 && IsBulk(m.typeName)
    requires Extent(s, env, BoundOf(m.dims[|m.dims| - 1])) == Ok(n)
    requires |bytes| == n * TypeSize(PrimitiveOf(m.typeName).value)
    ensures Run(g, host, s, env, DecodeFrom(m, |m.dims| - 1), bytes + rest, fuel)
         == Ok((List(Words(bytes, TypeSize(PrimitiveOf(m.typeName).value), !SingleByte(PrimitiveOf(m.typeName).value), host)), rest))
  {
    var p := PrimitiveOf(m.typeName).value;
    var W := TypeSize(p);
    MulMod(n, W);
    var input := bytes + rest;
    assert input[..n * W] == bytes && input[n * W..] == rest;
    assert ByteCountOf(s, env, ListRead(m.typeName, m.dims[|m.dims| - 1]).count) == Ok(n * W);
  }

  /** Loop iterations j.. at dimension k. */
  lemma {:induction false} EachRoundTrip(g: Graph, host: ByteOrder, s: Struct, fields: seq<Value>, i: nat, k: nat, w: Value, j: nat, fuel: nat, rest: seq<byte>)
    requires GraphWellFormed(g)
    requires i < |s.members| && i < |fields| && DimsWellFormed(s.members, i)
    requires k < |s.members[i].dims| && w.List? && j <= |w.items|
    requires forall t | j <= t < |w.items| ::
      Typed(g, s, fields, s.members[i].dims[k + 1..], s.members[i].typeName, w.items[t], fuel)
    ensures ExecEach(g, host, s, fields, EncBody(s.members[i], k), w, j, |w.items|).Ok?
    ensures RunEach(g, host, s, TerminatedAll(fields[..i]), DecBody(s.members[i], k), |w.items| - j,
                    ExecEach(g, host, s, fields, EncBody(s.members[i], k), w, j, |w.items|).value + rest, fuel)
         == Ok((TerminatedAll(w.items[j..]), rest))
    decreases w, 2, |s.members[i].dims| - k, 0, 2 * (|w.items| - j) + 1
  {
    if j == |w.items| {
      EachBase(g, host, s, fields, TerminatedAll(fields[..i]), EncBody(s.members[i], k), DecBody(s.members[i], k), w, fuel, rest);
    } else {
      EachRoundTrip(g, host, s, fields, i, k, w, j + 1, fuel, rest);
      EachCons(g, host, s, fields, i, k, w, j, fuel, rest);
    }
  }

  /** Iteration j in front of iterations j+1.., given the round trip of the latter. */
  lemma {:induction false} EachCons(g: Graph, host: ByteOrder, s: Struct, fields: seq<Value>, i: nat, k: nat, w: Value, j: nat, fuel: nat, rest: seq<byte>)
    requires GraphWellFormed(g)
    requires i < |s.members| && i < |fields| && DimsWellFormed(s.members, i)
    requires k < |s.members[i].dims| && w.List? && j < |w.items|
    requires Typed(g, s, fields, s.members[i].dims[k + 1..], s.members[i].typeName, w.items[j], fuel)
    requires ExecEach(g, host, s, fields, EncBody(s.members[i], k), w, j + 1, |w.items|).Ok?
    requires RunEach(g, host, s, TerminatedAll(fields[..i]), DecBody(s.members[i], k), |w.items| - (j + 1),
                     ExecEach(g, host, s, fields, EncBody(s.members[i], k), w, j + 1, |w.items|).value + rest, fuel)
          == Ok((TerminatedAll(w.items[j + 1..]), rest))
    ensures ExecEach(g, host, s, fields, EncBody(s.members[i], k), w, j, |w.items|).Ok?
    ensures RunEach(g, host, s, TerminatedAll(fields[..i]), DecBody(s.members[i], k), |w.items| - j,
                    ExecEach(g, host, s, fields, EncBody(s.members[i], k), w, j, |w.items|).value + rest, fuel)
         == Ok((TerminatedAll(w.items[j..]), rest))
    decreases w, 2, |s.members[i].dims| - k, 0, 2 * (|w.items| - j)
  {
    var m := s.members[i];
    var tail := ExecEach(g, host, s, fields, EncBody(m, k), w, j + 1, |w.items|).value;
    IterationRoundTrip(g, host, s, fields, i, k, w.items[j], fuel, tail + rest);
    var head := Exec(g, host, s, fields, EncBody(m, k), w.items[j]).value;
    EachStep(g, host, s, fields, TerminatedAll(fields[..i]), EncBody(m, k), DecBody(m, k), w, j, fuel, rest, head, tail);
  }

  /** One iteration of the loop at dimension k: the body on one element. */
  lemma {:induction false} IterationRoundTrip(g: Graph, host: ByteOrder, s: Struct, fields: seq<Value>, i: nat, k: nat, x: Value, fuel: nat, rest: seq<byte>)
    requires GraphWellFormed(g)
    requires i < |s.members| && i < |fields| && DimsWellFormed(s.members, i)
    requires k < |s.members[i].dims|
    requires Typed(g, s, fields, s.members[i].dims[k + 1..], s.members[i].typeName, x, fuel)
    ensures Exec(g, host, s, fields, EncBody(s.members[i], k), x).Ok?
    ensures Run(g, host, s, TerminatedAll(fields[..i]), DecBody(s.members[i], k),
                Exec(g, host, s, fields, EncBody(s.members[i], k), x).value + rest, fuel)
         == Ok((Terminated(x), rest))
    decreases x, 2, |s.members[i].dims| - k, 0, 0
  {
    var m := s.members[i];
    if k == |m.dims| - 1 {
      assert m.dims[k + 1..] == [];
      WriteRoundTrip(g, host, s, fields, TerminatedAll(fields[..i]), m.typeName, Access(m.name, k + 1), x, fuel, rest);
    } else {
      MemberRoundTrip(g, host, s, fields, i, k + 1, x, fuel, rest);
    }
  }

  /** A loop with no iterations left. */
  lemma EachBase(g: Graph, host: ByteOrder, s: Struct, encEnv: seq<Value>, decEnv: seq<Value>, ebody: EncOp, dbody: DecOp, w: Value, fuel: nat, rest: seq<byte>)
    requires w.List?
    ensures ExecEach(g, host, s, encEnv, ebody, w, |w.items|, |w.items|) == Ok([])
    ensures RunEach(g, host, s, decEnv, dbody, 0, [] + rest, fuel) == Ok((TerminatedAll(w.items[|w.items|..]), rest))
  {
    assert w.items[|w.items|..] == [];
    assert [] + rest == rest;
  }

  /** Assembles iteration j with iterations j+1.. on both sides. */
  lemma EachStep(g: Graph, host: ByteOrder, s: Struct, encEnv: seq<Value>, decEnv: seq<Value>, ebody: EncOp, dbody: DecOp, w: Value, j: nat, fuel: nat,
                 rest: seq<byte>, head: seq<byte>, tail: seq<byte>)
    requires w.List? && j < |w.items|
    requires Exec(g, host, s, encEnv, ebody, w.items[j]) == Ok(head)
    requires ExecEach(g, host, s, encEnv, ebody, w, j + 1, |w.items|) == Ok(tail)
    requires Run(g, host, s, decEnv, dbody, head + (tail + rest), fuel) == Ok((Terminated(w.items[j]), tail + rest))
    requires RunEach(g, host, s, decEnv, dbody, |w.items| - (j + 1), tail + rest, fuel) == Ok((TerminatedAll(w.items[j + 1..]), rest))
    ensures ExecEach(g, host, s, encEnv, ebody, w, j, |w.items|) == Ok(head + tail)
    ensures RunEach(g, host, s, decEnv, dbody, |w.items| - j, (head + tail) + rest, fuel) == Ok((TerminatedAll(w.items[j..]), rest))
  {
    Associate(head, tail, rest);
    TerminatedCons(w.items, j);
    ExecEachCons(g, host, s, encEnv, ebody, w, j, head, tail);
    RunEachCons(g, host, s, decEnv, dbody, |w.items| - j, head + (tail + rest), Terminated(w.items[j]), tail + rest,
                TerminatedAll(w.items[j + 1..]), rest, fuel);
  }

  lemma TerminatedCons(vs: seq<Value>, j: nat)
    requires j < |vs|
    ensures [Terminated(vs[j])] + TerminatedAll(vs[j + 1..]) == TerminatedAll(vs[j..])
  {
  }

  /** One step of a loop's encode. */
  lemma ExecEachCons(g: Graph, host: ByteOrder, s: Struct, env: seq<Value>, body: EncOp, w: Value, j: nat, head: seq<byte>, tail: seq<byte>)
    requires w.List? && j < |w.items|
    requires Exec(g, host, s, env, body, w.items[j]) == Ok(head)
    requires ExecEach(g, host, s, env, body, w, j + 1, |w.items|) == Ok(tail)
    ensures ExecEach(g, host, s, env, body, w, j, |w.items|) == Ok(head + tail)
  {
  }

  /** One step of a loop's decode. */
  lemma RunEachCons(g: Graph, host: ByteOrder, s: Struct, env: seq<Value>, body: DecOp, n: nat, input: seq<byte>, x: Value, after: seq<byte>,
                    xs: seq<Value>, rest: seq<byte>, fuel: nat)
    requires n > 0
    requires Run(g, host, s, env, body, input, fuel) == Ok((x, after))
    requires RunEach(g, host, s, env, body, n - 1, after, fuel) == Ok((xs, rest))
    ensures RunEach(g, host, s, env, body, n, input, fuel) == Ok(([x] + xs, rest))
  {
  }

  /** A scalar: a primitive, a string, or a nested struct through its own
      `_encode_one` / `_decode_one`. */
  lemma {:induction false} ScalarRoundTrip(g: Graph, host: ByteOrder, tn: string, w: Value, fuel: nat, rest: seq<byte>)
    requires GraphWellFormed(g) && LeafTyped(g, tn, w, fuel)
    ensures EncodeScalar(g, host, EncodeRule(tn), w).Ok?
    ensures DecodeScalar(g, host, DecodeRule(tn), EncodeScalar(g, host, EncodeRule(tn), w).value + rest, fuel) == Ok((Terminated(w), rest))
    decreases w, 2, 0, 0, 0
  {
    match PrimitiveOf(tn)
    case None =>
      RecordRoundTrip(g, host, tn, w, fuel, rest);
    case Some(p) =>
      PrimitiveRules(tn, p);
      PrimitiveRoundTrip(p, w, host, rest);
  }

  /** The rules both sides pick for a primitive type name. */
  lemma PrimitiveRules(tn: string, p: Primitive)
    requires PrimitiveOf(tn) == Some(p)
    ensures p == Str <==> tn == "string"
    ensures EncodeRule(tn) == (if p == Str then TextRule else if p == Boolean then RawRule(p) else SwapRule(p))
    ensures DecodeRule(tn) == (if p == Str then TextRule else if SingleByte(p) then RawRule(p) else SwapRule(p))
  {
  }

  /** A primitive value under the rules of its type. */
  lemma PrimitiveRoundTrip(p: Primitive, w: Value, host: ByteOrder, rest: seq<byte>)
    requires if p == Str then w.Text? && |w.bytes| + 1 < Pow256(LengthSize) else w.Bits? && w.n < Pow256(TypeSize(p))
    ensures EncodeLeaf(if p == Str then TextRule else if p == Boolean then RawRule(p) else SwapRule(p), w, host)
         == Ok(if p == Str then ToBE(|w.bytes| + 1, LengthSize) + w.bytes + [0] else ToBE(w.n, TypeSize(p)))
    ensures DecodeLeaf(if p == Str then TextRule else if SingleByte(p) then RawRule(p) else SwapRule(p),
                       EncodeLeaf(if p == Str then TextRule else if p == Boolean then RawRule(p) else SwapRule(p), w, host).value + rest, host)
         == Ok((Terminated(w), rest))
  {
    if p == Str {
      TextLeafRoundTrip(w.bytes, host, rest);
    } else {
      WordLeafRoundTrip(p, p != Boolean, !SingleByte(p), w.n, host, rest);
    }
  }

  /** A string goes out as its length plus one in four network-order bytes,
      the bytes and a zero; reading takes the length and that many bytes,
      the terminator with them. */
  lemma TextLeafRoundTrip(bytes: seq<byte>, host: ByteOrder, rest: seq<byte>)
    requires |bytes| + 1 < Pow256(LengthSize)
    ensures EncodeLeaf(TextRule, Text(bytes), host) == Ok(ToBE(|bytes| + 1, LengthSize) + bytes + [0])
    ensures DecodeLeaf(TextRule, ToBE(|bytes| + 1, LengthSize) + bytes + [0] + rest, host) == Ok((Text(bytes + [0]), rest))
  {
    TextWrite(bytes, host);
    var prefix := ToBE(|bytes| + 1, LengthSize);
    LengthPrefixRead(|bytes| + 1, host);
    Regroup(prefix, bytes, [0], rest);
    TextRead(prefix, bytes + [0], rest, host);
  }

  lemma TextWrite(bytes: seq<byte>, host: ByteOrder)
    requires |bytes| + 1 < Pow256(LengthSize)
    ensures EncodeLeaf(TextRule, Text(bytes), host) == Ok(ToBE(|bytes| + 1, LengthSize) + bytes + [0])
  {
    LengthPrefixWrite(|bytes| + 1, host);
    TextWriteShape(bytes, host);
  }

  lemma LengthPrefixWrite(n: nat, host: ByteOrder)
    requires n < Pow256(LengthSize)
    ensures PutWord(n, LengthSize, true, host) == ToBE(n, LengthSize)
  {
    WriteHton(n, LengthSize, host);
  }

  lemma TextWriteShape(bytes: seq<byte>, host: ByteOrder)
    requires |bytes| + 1 < Pow256(LengthSize)
    ensures EncodeLeaf(TextRule, Text(bytes), host) == Ok(PutWord(|bytes| + 1, LengthSize, true, host) + bytes + [0])
  {
  }

  lemma LengthPrefixRead(n: nat, host: ByteOrder)
    requires n < Pow256(LengthSize)
    ensures |ToBE(n, LengthSize)| == LengthSize && GetWord(ToBE(n, LengthSize), true, host) == n
  {
    PutGetWord(n, LengthSize, true, true, host);
  }

  lemma Regroup(a: seq<byte>, b: seq<byte>, c: seq<byte>, d: seq<byte>)
    ensures a + b + c + d == a + (b + c) + d
  {
  }

  /** Reading a string whose length prefix gives the length of body. */
  lemma TextRead(prefix: seq<byte>, body: seq<byte>, rest: seq<byte>, host: ByteOrder)
    requires |prefix| == LengthSize && GetWord(prefix, true, host) == |body|
    ensures DecodeLeaf(TextRule, prefix + body + rest, host) == Ok((Text(body), rest))
  {
    var input := prefix + body + rest;
    assert input[..LengthSize] == prefix;
    assert input[LengthSize..LengthSize + |body|] == body && input[LengthSize + |body|..] == rest;
  }

  /** A number goes out in network order at its width, and is read back. */
  lemma WordLeafRoundTrip(p: Primitive, es: bool, ds: bool, x: nat, host: ByteOrder, rest: seq<byte>)
    requires p != Str && x < Pow256(TypeSize(p)) && (es || TypeSize(p) == 1) && (ds || TypeSize(p) == 1)
    ensures EncodeLeaf(if es then SwapRule(p) else RawRule(p), Bits(x), host) == Ok(ToBE(x, TypeSize(p)))
    ensures DecodeLeaf(if ds then SwapRule(p) else RawRule(p), ToBE(x, TypeSize(p)) + rest, host) == Ok((Bits(x), rest))
  {
    var w := TypeSize(p);
    PutGetWord(x, w, es, ds, host);
    SplitConcat(ToBE(x, w), rest);
  }

  lemma SplitConcat(a: seq<byte>, b: seq<byte>)
    ensures (a + b)[..|a|] == a && (a + b)[|a|..] == b
  {
  }

  // ---------------------------------------------------------------------
  // Messages

  /** `decode(encode(v))` gives v back, every string with its terminator,
      on either host, whatever follows the message. */
  lemma MessageRoundTrip(g: Graph, host: ByteOrder, tn: string, v: Value, fuel: nat, rest: seq<byte>)
    requires GraphWellFormed(g) && RecordTyped(g, tn, v, fuel)
    ensures EncodeMessage(g, host, tn, v).Ok?
    ensures DecodeMessage(g, host, tn, EncodeMessage(g, host, tn, v).value + rest, fuel) == Ok(Terminated(v))
  {
    RecordRoundTrip(g, host, tn, v, fuel, rest);
    MessageFromRecord(g, host, tn, v, EncodeRecord(g, host, tn, v).value, Terminated(v), fuel, rest);
  }

  /** A struct body that round-trips makes a message that round-trips. */
  lemma MessageFromRecord(g: Graph, host: ByteOrder, tn: string, v: Value, body: seq<byte>, x: Value, fuel: nat, rest: seq<byte>)
    requires Closed(g) && tn in g && EncodeRecord(g, host, tn, v) == Ok(body)
    requires DecodeRecord(g, host, tn, body + rest, fuel) == Ok((x, rest))
    ensures EncodeMessage(g, host, tn, v) == Ok(HashBytes(g, tn) + body)
    ensures DecodeMessage(g, host, tn, HashBytes(g, tn) + body + rest, fuel) == Ok(x)
  {
    EncodeFrame(g, host, tn, v);
    assert HashBytes(g, tn) + body + rest == HashBytes(g, tn) + (body + rest);
    DecodeFrame(g, host, tn, body + rest, fuel);
  }

  /** The 8 bytes the fingerprint occupies on the wire. */
  function HashBytes(g: Graph, tn: string): (r: seq<byte>)
    requires Closed(g) && tn in g
    ensures |r| == HashSize
  {
    Pow256Eight();
    ToBE(MessageHash(g, tn), HashSize)
  }

  /** encode puts the fingerprint in network order before the body. */
  lemma EncodeFrame(g: Graph, host: ByteOrder, tn: string, v: Value)
    requires Closed(g) && tn in g && EncodeRecord(g, host, tn, v).Ok?
    ensures EncodeMessage(g, host, tn, v) == Ok(HashBytes(g, tn) + EncodeRecord(g, host, tn, v).value)
  {
    Pow256Eight();
    PutGetWord(MessageHash(g, tn), HashSize, true, true, host);
  }

  /** decode, finding the fingerprint in front, decodes what follows it. */
  lemma DecodeFrame(g: Graph, host: ByteOrder, tn: string, after: seq<byte>, fuel: nat)
    requires Closed(g) && tn in g && DecodeRecord(g, host, tn, after, fuel).Ok?
    ensures DecodeMessage(g, host, tn, HashBytes(g, tn) + after, fuel) == Ok(DecodeRecord(g, host, tn, after, fuel).value.0)
  {
    Pow256Eight();
    var h := MessageHash(g, tn);
    PutGetWord(h, HashSize, true, true, host);
    var data := HashBytes(g, tn) + after;
    assert data[..HashSize] == ToBE(h, HashSize) && data[HashSize..] == after;
  }

  /** Without strings the round trip is exact. */
  lemma MessageRoundTripWithoutText(g: Graph, host: ByteOrder, tn: string, v: Value, fuel: nat)
    requires GraphWellFormed(g) && RecordTyped(g, tn, v, fuel) && NoText(v)
    ensures EncodeMessage(g, host, tn, v).Ok?
    ensures DecodeMessage(g, host, tn, EncodeMessage(g, host, tn, v).value, fuel) == Ok(v)
  {
    MessageRoundTrip(g, host, tn, v, fuel, []);
    assert EncodeMessage(g, host, tn, v).value + [] == EncodeMessage(g, host, tn, v).value;
    TerminatedWithoutText(v);
  }

  /** A message too short to hold the fingerprint is refused. */
  lemma ShortMessageRejected(g: Graph, host: ByteOrder, tn: string, data: seq<byte>, fuel: nat)
    requires Closed(g) && tn in g && |data| < 8
    ensures DecodeMessage(g, host, tn, data, fuel) == Err(BufferUnderrun)
  {
  }

  /** When the leading 8 bytes, in network order, are not the struct's
      fingerprint, decode raises "Decode error" and reads nothing more. */
  lemma HashMismatchStopsDecode(g: Graph, host: ByteOrder, tn: string, data: seq<byte>, fuel: nat)
    requires Closed(g) && tn in g && |data| >= 8 && FromBE(data[..8]) != MessageHash(g, tn)
    ensures DecodeMessage(g, host, tn, data, fuel) == Err(HashMismatch)
  {
    ReadNtoh(data[..8], host);
  }

  /** The encoding of a message of one struct, decoded as a struct with a
      different fingerprint, is refused. */
  lemma ForeignMessageRejected(g: Graph, host: ByteOrder, a: string, b: string, v: Value, fuel: nat)
    requires Closed(g) && a in g && b in g && MessageHash(g, a) != MessageHash(g, b)
    requires EncodeMessage(g, host, a, v).Ok?
    ensures DecodeMessage(g, host, b, EncodeMessage(g, host, a, v).value, fuel) == Err(HashMismatch)
  {
    Pow256Eight();
    var h := MessageHash(g, a);
    PutGetWord(h, HashSize, true, true, host);
    FromToBE(h, HashSize);
    var data := EncodeMessage(g, host, a, v).value;
    assert data[..HashSize] == ToBE(h, HashSize);
    HashMismatchStopsDecode(g, host, b, data, fuel);
  }

  /** The wire form of each scalar, the same on either host: numbers in
      network order at their width, a string as its length plus one in four
      network-order bytes, the bytes, and a zero terminator. */
  lemma ScalarWireFormat(g: Graph, host: ByteOrder, tn: string, w: Value, fuel: nat)
    requires IsPrimitiveType(tn) && LeafTyped(g, tn, w, fuel)
    ensures tn == "string" ==> EncodeScalar(g, host, EncodeRule(tn), w) == Ok(ToBE(|w.bytes| + 1, LengthSize) + w.bytes + [0])
    ensures tn != "string" ==> EncodeScalar(g, host, EncodeRule(tn), w) == Ok(ToBE(w.n, TypeSize(PrimitiveOf(tn).value)))
  {
    var p := PrimitiveOf(tn).value;
    PrimitiveRules(tn, p);
    PrimitiveRoundTrip(p, w, host, []);
  }
}

=== FILE: schema.dfy ===
/** The parsed message schema that the Julia emitter reads: the primitive
    type catalogue, members with their dimension lists, constants, and the
    graph of structs that composite members refer to. */
module Schema {

  datatype Option<T> = None | Some(value: T)

  /** 2^64: UInt64 arithmetic in the generated code wraps modulo this. */
  const TWO64: nat := 0x1_0000_0000_0000_0000

  /** A 64-bit word, as a number. */
  type u64 = x: int | 0 <= x < TWO64

  /** The nine zcm primitive types. */
  datatype Primitive = Int8 | Int16 | Int32 | Int64 | Byte | Float | Double | Str | Boolean

  /** The zcm spelling of each primitive type name. */
  function PrimitiveName(p: Primitive): string
  {
    match p
    case Int8 => "int8_t"
    case Int16 => "int16_t"
    case Int32 => "int32_t"
    case Int64 => "int64_t"
    case Byte => "byte"
    case Float => "float"
    case Double => "double"
    case Str => "string"
    case Boolean => "boolean"
  }

  /** Classifies a member's type name: the primitive it names, or None for a
      composite (struct) type. This is the emitter's string dispatch and
      ZCMGen::isPrimitiveType in one place. */
  function PrimitiveOf(tn: string): (r: Option<Primitive>)
    ensures r.Some? ==> PrimitiveName(r.value) == tn
  {
    if tn == "int8_t" then Some(Int8)
    else if tn == "int16_t" then Some(Int16)
    else if tn == "int32_t" then Some(Int32)
    else if tn == "int64_t" then Some(Int64)
    else if tn == "byte" then Some(Byte)
    else if tn == "float" then Some(Float)
    else if tn == "double" then Some(Double)
    else if tn == "string" then Some(Str)
    else if tn == "boolean" then Some(Boolean)
    else None
  }

  predicate IsPrimitiveType(tn: string)
  {
    PrimitiveOf(tn).Some?
  }

  /** The primitive catalogue is exactly the nine names: each name maps back
      to its primitive. */
  lemma PrimitiveNameRoundTrip(p: Primitive)
    ensures PrimitiveOf(PrimitiveName(p)) == Some(p)
  {
  }

  /** Byte width of a fixed-width primitive (getPrimitiveTypeSize). */
  function TypeSize(p: Primitive): (w: nat)
    requires p != Str
    ensures w in {1, 2, 4, 8}
  {
    match p
    case Int8 => 1
    case Byte => 1
    case Boolean => 1
    case Int16 => 2
    case Int32 => 4
    case Float => 4
    case Int64 => 8
    case Double => 8
  }

  /** The signed integer types, the only ones a variable dimension may name. */
  predicate IsSignedInteger(p: Primitive)
  {
    p == Int8 || p == Int16 || p == Int32 || p == Int64
  }

  /** A dimension: a literal extent, or the name of a sibling member whose
      runtime value is the extent. */
  datatype Dimension = Const(size: nat) | Var(sibling: string)

  datatype Member = Member(name: string, typeName: string, dims: seq<Dimension>)

  /** A named constant; fixedPoint says its literal text is to be bit-reinterpreted. */
  datatype Constant = Constant(name: string, typeName: string, valstr: string, fixedPoint: bool)

  /** A struct: full (package-qualified) name, short name, members and
      constants in declaration order, and the base hash computed by the
      schema loader from the struct's textual shape. */
  datatype Struct = Struct(
    fullname: string,
    shortname: string,
    members: seq<Member>,
    constants: seq<Constant>,
    baseHash: u64)

  /** All structs of one generation run, keyed by full name. */
  type Graph = map<string, Struct>

  /** Every struct is stored under its own full name and every composite
      member type names a struct of the graph. */
  predicate Closed(g: Graph)
  {
    forall k | k in g ::
      g[k].fullname == k &&
      forall m | m in g[k].members :: !IsPrimitiveType(m.typeName) ==> m.typeName in g
  }

  /** Index of the first member called name, if any. */
  function MemberIndex(ms: seq<Member>, name: string): (r: Option<nat>)
    ensures r.Some? ==> r.value < |ms| && ms[r.value].name == name
    ensures r.Some? ==> forall j | 0 <= j < r.value :: ms[j].name != name
    ensures r.None? ==> forall j | 0 <= j < |ms| :: ms[j].name != name
  {
    if ms == [] then None
    else if ms[0].name == name then Some(0)
    else match MemberIndex(ms[1..], name)
      case None => None
      case Some(i) => Some(i + 1)
  }

  /** Every variable dimension of member i names a signed integer member
      declared before it (validated before code generation). */
  predicate DimsWellFormed(ms: seq<Member>, i: nat)
    requires i < |ms|
  {
    forall d | d in ms[i].dims && d.Var? ::
      var j := MemberIndex(ms, d.sibling);
      j.Some? && j.value < i &&
      PrimitiveOf(ms[j.value].typeName).Some? &&
      IsSignedInteger(PrimitiveOf(ms[j.value].typeName).value) &&
      ms[j.value].dims == []
  }

  predicate StructWellFormed(s: Struct)
  {
    forall i | 0 <= i < |s.members| :: DimsWellFormed(s.members, i)
  }

  predicate GraphWellFormed(g: Graph)
  {
    Closed(g) && forall k | k in g :: StructWellFormed(g[k])
  }
}

=== FILE: terminator.dfy ===
/** The string terminator as the generated code writes it. `write(buf, 0)`
    writes Julia's `Int` zero, which is as wide as a machine word, while the
    decoder consumes only the one terminator byte its length prefix counts.
    The remaining zero bytes are then read as the next member. Wire.EncodeLeaf
    writes the one-byte terminator the decoder expects (see
    RoundTrip.TextLeafRoundTrip). */
module TextTerminator {
  import opened Schema
  import opened Bytes
  import opened Plan
  import opened Wire
  import opened RoundTrip

  /** Width in bytes of Julia's `Int` on a 64-bit host (4 on a 32-bit one). */
  const IntSize: nat := 8

  /** n zero bytes. */
  function Zeros(n: nat): (r: seq<byte>)
    ensures |r| == n && forall i | 0 <= i < n :: r[i] == 0
  {
    seq(n, _ => 0)
  }

  /** The memory image of 0 is all zero bytes, on either host. */
  lemma {:induction false} ZeroImage(w: nat, host: ByteOrder)
    ensures Mem(0, w, host) == Zeros(w)
  {
    ZeroWords(w);
  }

  lemma {:induction false} ZeroWords(w: nat)
    ensures ToBE(0, w) == Zeros(w) && ToLE(0, w) == Zeros(w)
  {
    if w > 0 {
      ZeroWords(w - 1);
      assert ToBE(0, w) == Zeros(w - 1) + [0];
      assert ToLE(0, w) == [0] + Zeros(w - 1);
    }
  }

  /** The string write as written: the length plus one through hton, the
      bytes, then `write(buf, 0)`, which emits intWidth zero bytes. */
  function TextWriteAsWritten(bytes: seq<byte>, intWidth: nat, host: ByteOrder): seq<byte>
    requires |bytes| + 1 < Pow256(LengthSize)
  {
    PutWord(|bytes| + 1, LengthSize, true, host) + bytes + Mem(0, intWidth, host)
  }

  /** A scalar write as the generated code has it: the string rule with the
      Int-wide terminator, every other rule as in Wire.EncodeLeaf. */
  function EncodeLeafAsWritten(rule: Rule, v: Value, host: ByteOrder): Result<seq<byte>>
    requires !rule.NestedRule?
  {
    if rule == TextRule then
      if v.Text? && |v.bytes| + 1 < Pow256(LengthSize) then Ok(TextWriteAsWritten(v.bytes, IntSize, host))
      else Err(ShapeMismatch)
    else EncodeLeaf(rule, v, host)
  }

  /** The generated decoder reads the string and one terminator byte and
      leaves the other intWidth - 1 zero bytes at the head of the input. */
  lemma WideTerminatorLeftInInput(bytes: seq<byte>, intWidth: nat, host: ByteOrder, rest: seq<byte>)
    requires intWidth >= 1 && |bytes| + 1 < Pow256(LengthSize)
    ensures DecodeLeaf(TextRule, TextWriteAsWritten(bytes, intWidth, host) + rest, host)
         == Ok((Text(bytes + [0]), Zeros(intWidth - 1) + rest))
  {
    LengthPrefixWrite(|bytes| + 1, host);
    LengthPrefixRead(|bytes| + 1, host);
    ZeroImage(intWidth, host);
    var prefix := ToBE(|bytes| + 1, LengthSize);
    assert TextWriteAsWritten(bytes, intWidth, host) + rest == prefix + (bytes + [0]) + (Zeros(intWidth - 1) + rest);
    TextRead(prefix, bytes + [0], Zeros(intWidth - 1) + rest, host);
  }

  /** `struct S { string s; int32_t x; }`. */
  function TextThenInt(): Struct
  {
    Struct("S", "S", [Member("s", "string", []), Member("x", "int32_t", [])], [], 1)
  }

  /** For S{s = "ab", x = 5} the generated `_encode_one` writes
      00 00 00 03, 61 62, eight zero bytes, 00 00 00 05; the generated
      `_decode_one` reads back "ab" with its terminator and then x = 0 from
      the terminator's remaining bytes, on either host. */
  lemma WideTerminatorMisreadsNextMember(g: Graph, host: ByteOrder, fuel: nat)
    ensures EncodeLeafAsWritten(TextRule, Text([97, 98]), host).Ok?
    ensures EncodeLeafAsWritten(SwapRule(Int32), Bits(5), host).Ok?
    ensures
      var wire := EncodeLeafAsWritten(TextRule, Text([97, 98]), host).value
                + EncodeLeafAsWritten(SwapRule(Int32), Bits(5), host).value;
      var decoded := DecodeFields(g, host, TextThenInt(), [], wire, fuel);
      decoded.Ok? && decoded.value.0 == [Text([97, 98, 0]), Bits(0)]
  {
    WriteHton(5, 4, host);
    assert EncodeLeafAsWritten(SwapRule(Int32), Bits(5), host) == Ok(ToBE(5, 4));
    var wire := TextWriteAsWritten([97, 98], IntSize, host) + ToBE(5, 4);
    var after := Zeros(IntSize - 1) + ToBE(5, 4);
    TextMemberRead(g, host, fuel, wire, after);
    IntMemberRead(g, host, fuel, after);
  }

  /** The first member takes the string and one terminator byte. */
  lemma TextMemberRead(g: Graph, host: ByteOrder, fuel: nat, wire: seq<byte>, after: seq<byte>)
    requires wire == TextWriteAsWritten([97, 98], IntSize, host) + ToBE(5, 4)
    requires after == Zeros(IntSize - 1) + ToBE(5, 4)
    ensures DecodeFields(g, host, TextThenInt(), [], wire, fuel)
         == DecodeFields(g, host, TextThenInt(), [Text([97, 98, 0])], after, fuel)
  {
    var s := TextThenInt();
    assert PrimitiveOf("string") == Some(Str);
    assert DecodeMember(s.members[0]) == Read(TextRule);
    WideTerminatorLeftInInput([97, 98], IntSize, host, ToBE(5, 4));
    assert [97, 98] + [0] == [97, 98, 0];
    assert DecodeLeaf(TextRule, wire, host) == Ok((Text([97, 98, 0]), after));
    assert Run(g, host, s, [], DecodeMember(s.members[0]), wire, fuel) == Ok((Text([97, 98, 0]), after));
    assert [] + [Text([97, 98, 0])] == [Text([97, 98, 0])];
  }

  /** The second member reads its four bytes from the terminator's zeros. */
  lemma IntMemberRead(g: Graph, host: ByteOrder, fuel: nat, after: seq<byte>)
    requires after == Zeros(IntSize - 1) + ToBE(5, 4)
    ensures DecodeFields(g, host, TextThenInt(), [Text([97, 98, 0])], after, fuel)
         == Ok(([Text([97, 98, 0]), Bits(0)], after[4..]))
  {
    var s := TextThenInt();
    assert PrimitiveOf("int32_t") == Some(Int32);
    assert DecodeMember(s.members[1]) == Read(SwapRule(Int32));
    assert after[..4] == Zeros(4);
    ZeroWord(host);
    assert TypeSize(Int32) == 4 && |after| >= 4;
    assert DecodeLeaf(SwapRule(Int32), after, host) == Ok((Bits(0), after[4..]));
    assert Run(g, host, s, [Text([97, 98, 0])], DecodeMember(s.members[1]), after, fuel) == Ok((Bits(0), after[4..]));
    assert [Text([97, 98, 0])] + [Bits(0)] == [Text([97, 98, 0]), Bits(0)];
    assert Run(g, host, s, [Text([97, 98, 0])], Read(SwapRule(Int32)), after, fuel) == Ok((Bits(0), after[4..]));
  }

  lemma ZeroWord(host: ByteOrder)
    ensures GetWord(Zeros(4), true, host) == 0
  {
    ZeroWords(4);
    FromToBE(0, 4);
    if host == LittleEndian {
      FromLEIsReversedBE(Zeros(4));
      assert Reverse(Zeros(4)) == Zeros(4);
    }
  }
}

=== FILE: wire.dfy ===
/** What the generated codec does at run time: the encode plan of each
    member turns a message value into bytes, the decode plan turns bytes
    back into a value, and `encode`/`decode` frame the body with the
    struct's fingerprint. */
module Wire {
  import opened Schema
  import opened Bytes
  import opened Hashing
  import opened Plan

  /** A message value: a fixed-width primitive as its bit pattern, a
      string's bytes, an array, or a struct instance with one value per
      member in declaration order. */
  datatype Value = Bits(n: nat) | Text(bytes: seq<byte>) | List(items: seq<Value>) | Record(typeName: string, fields: seq<Value>)

  /** Ways the generated code fails. BufferUnderrun: fewer bytes left than a
      read needs. HashMismatch: the "Decode error" of `decode`. BadExtent: a
      negative array length. ShapeMismatch: a value or field that does not
      fit the declared type (a Julia type or bounds error). UnknownType: a
      member type with no generated struct. OutOfFuel: nesting deeper than
      the decoder's fuel. */
  datatype CodecError = BufferUnderrun | HashMismatch | BadExtent | ShapeMismatch | UnknownType | OutOfFuel

  datatype Result<T> = Ok(value: T) | Err(error: CodecError)

  // ---------------------------------------------------------------------
  // Extents

  /** A sibling's value read as the signed integer of its declared type. */
  function SignedExtent(tn: string, v: Value): Result<nat>
  {
    match PrimitiveOf(tn)
    case Some(p) =>
      if p == Str || !v.Bits? || v.n >= Pow256(TypeSize(p)) then Err(ShapeMismatch)
      else
        var e := ToSigned(v.n, TypeSize(p));
        if e < 0 then Err(BadExtent) else Ok(e)
    case None => Err(ShapeMismatch)
  }

  /** The run-time value of a loop bound, given the struct's member values
      known so far. */
  function Extent(s: Struct, env: seq<Value>, b: Bound): Result<nat>
  {
    match b
    case Fixed(n) => Ok(n)
    case Field(x) =>
      match MemberIndex(s.members, x)
      case None => Err(ShapeMismatch)
      case Some(j) => if j < |env| then SignedExtent(s.members[j].typeName, env[j]) else Err(ShapeMismatch)
  }

  function ByteCountOf(s: Struct, env: seq<Value>, c: ByteCount): Result<nat>
  {
    match c
    case FixedBytes(n) => Ok(n)
    case FieldTimes(x, w) =>
      match Extent(s, env, Field(x))
      case Err(e) => Err(e)
      case Ok(n) => Ok(n * w)
  }

  // ---------------------------------------------------------------------
  // Words

  /** `write(buf, hton(x))` when swap, `write(buf, x)` otherwise. */
  function PutWord(x: nat, w: nat, swap: bool, host: ByteOrder): seq<byte>
    requires x < Pow256(w)
  {
    if swap then Mem(Hton(x, w, host), w, host) else Mem(x, w, host)
  }

  /** `ntoh(reinterpret(T, bytes)[1])` when swap, without ntoh otherwise. */
  function GetWord(s: seq<byte>, swap: bool, host: ByteOrder): nat
  {
    if swap then Hton(FromMem(s, host), |s|, host) else FromMem(s, host)
  }

  // ---------------------------------------------------------------------
  // Encoding

  function EncSize(op: EncOp): (r: nat)
    ensures r >= 1
  {
    match op
    case EncLoop(_, _, body) => 1 + EncSize(body)
    case _ => 1
  }

  /** Width in bytes of the length prefix of a string. */
  const LengthSize: nat := 4

  /** A scalar write that does not recurse into another struct. */
  function EncodeLeaf(rule: Rule, v: Value, host: ByteOrder): Result<seq<byte>>
    requires !rule.NestedRule?
  {
    match rule
    case TextRule =>
      if v.Text? && |v.bytes| + 1 < Pow256(LengthSize) then Ok(PutWord(|v.bytes| + 1, LengthSize, true, host) + v.bytes + [0])
      else Err(ShapeMismatch)
    case RawRule(p) =>
      if p != Str && v.Bits? && v.n < Pow256(TypeSize(p)) then Ok(PutWord(v.n, TypeSize(p), false, host))
      else Err(ShapeMismatch)
    case SwapRule(p) =>
      if p != Str && v.Bits? && v.n < Pow256(TypeSize(p)) then Ok(PutWord(v.n, TypeSize(p), true, host))
      else Err(ShapeMismatch)
  }

  /** The elements of a bulk write, each w bytes. */
  function BulkBytes(xs: seq<Value>, w: nat, swap: bool, host: ByteOrder): Result<seq<byte>>
  {
    if xs == [] then Ok([])
    else if !xs[0].Bits? || xs[0].n >= Pow256(w) then Err(ShapeMismatch)
    else
      match BulkBytes(xs[1..], w, swap, host)
      case Err(e) => Err(e)
      case Ok(rest) => Ok(PutWord(xs[0].n, w, swap, host) + rest)
  }

  /** The generated `_encode_one` of struct tn on value v. */
  function EncodeRecord(g: Graph, host: ByteOrder, tn: string, v: Value): Result<seq<byte>>
    decreases v, 1, 0, 0
  {
    if tn !in g then Err(UnknownType)
    else if !v.Record? || v.typeName != tn || |v.fields| != |g[tn].members| then Err(ShapeMismatch)
    else EncodeFields(g, host, g[tn], v, 0)
  }

  /** Members i.. of record r, in declaration order. */
  function EncodeFields(g: Graph, host: ByteOrder, s: Struct, r: Value, i: nat): Result<seq<byte>>
    requires r.Record? && |r.fields| == |s.members| && i <= |s.members|
    decreases r, 0, |s.members| - i, 0
  {
    if i == |s.members| then Ok([])
    else
      match Exec(g, host, s, r.fields, EncodeMember(s.members[i]), r.fields[i])
      case Err(e) => Err(e)
      case Ok(head) =>
        match EncodeFields(g, host, s, r, i + 1)
        case Err(e) => Err(e)
        case Ok(tail) => Ok(head + tail)
  }

  function EncodeScalar(g: Graph, host: ByteOrder, rule: Rule, v: Value): Result<seq<byte>>
    decreases v, 2, 0, 0
  {
    if rule.NestedRule? then EncodeRecord(g, host, rule.typeName, v) else EncodeLeaf(rule, v, host)
  }

  /** Runs an encode plan on the value its accessor denotes; env holds the
      struct's member values, for the bounds. A loop runs over the first
      `bound` elements, and an array shorter than that is a bounds error. */
  function Exec(g: Graph, host: ByteOrder, s: Struct, env: seq<Value>, op: EncOp, v: Value): Result<seq<byte>>
    decreases v, 2, EncSize(op), 0
  {
    match op
    case Write(rule, _) => EncodeScalar(g, host, rule, v)
    case BulkWrite(p, swap, _, len) =>
      (match Extent(s, env, len)
       case Err(e) => Err(e)
       case Ok(n) =>
         if p == Str || !v.List? || n > |v.items| then Err(ShapeMismatch)
         else BulkBytes(v.items[..n], TypeSize(p), swap, host))
    case EncLoop(_, b, body) =>
      match Extent(s, env, b)
      case Err(e) => Err(e)
      case Ok(n) =>
        if !v.List? || n > |v.items| then Err(ShapeMismatch)
        else ExecEach(g, host, s, env, body, v, 0, n)
  }

  /** Loop iterations j..n-1 of the body on the elements of list v. */
  function ExecEach(g: Graph, host: ByteOrder, s: Struct, env: seq<Value>, body: EncOp, v: Value, j: nat, n: nat): Result<seq<byte>>
    requires v.List? && j <= n <= |v.items|
    decreases v, 2, EncSize(body), n - j
  {
    if j == n then Ok([])
    else
      match Exec(g, host, s, env, body, v.items[j])
      case Err(e) => Err(e)
      case Ok(head) =>
        match ExecEach(g, host, s, env, body, v, j + 1, n)
        case Err(e) => Err(e)
        case Ok(tail) => Ok(head + tail)
  }

  // ---------------------------------------------------------------------
  // Decoding

  function DecSize(op: DecOp): (r: nat)
    ensures r >= 1
  {
    match op
    case DecLoop(_, _, body) => 1 + DecSize(body)
    case _ => 1
  }

  /** A scalar read that does not recurse into another struct. A string
      keeps every byte its length prefix counts, the terminator included. */
  function DecodeLeaf(rule: Rule, input: seq<byte>, host: ByteOrder): Result<(Value, seq<byte>)>
    requires !rule.NestedRule?
  {
    match rule
    case TextRule =>
      if |input| < LengthSize then Err(BufferUnderrun)
      else
        var len := GetWord(input[..LengthSize], true, host);
        if |input| - LengthSize < len then Err(BufferUnderrun)
        else Ok((Text(input[LengthSize..LengthSize + len]), input[LengthSize + len..]))
    case RawRule(p) =>
      if p == Str then Err(ShapeMismatch)
      else if |input| < TypeSize(p) then Err(BufferUnderrun)
      else Ok((Bits(GetWord(input[..TypeSize(p)], false, host)), input[TypeSize(p)..]))
    case SwapRule(p) =>
      if p == Str then Err(ShapeMismatch)
      else if |input| < TypeSize(p) then Err(BufferUnderrun)
      else Ok((Bits(GetWord(input[..TypeSize(p)], true, host)), input[TypeSize(p)..]))
  }

  /** `reinterpret(T, bytes)`, each element through `ntoh` when swap. */
  function Words(s: seq<byte>, w: nat, swap: bool, host: ByteOrder): seq<Value>
    requires w > 0
    decreases |s|
  {
    if |s| < w then [] else [Bits(GetWord(s[..w], swap, host))] + Words(s[w..], w, swap, host)
  }

  /** The generated `_decode_one` of struct tn. */
  function DecodeRecord(g: Graph, host: ByteOrder, tn: string, input: seq<byte>, fuel: nat): Result<(Value, seq<byte>)>
    decreases fuel, 0, 0, 0
  {
    if tn !in g then Err(UnknownType)
    else if fuel == 0 then Err(OutOfFuel)
    else
      match DecodeFields(g, host, g[tn], [], input, fuel - 1)
      case Err(e) => Err(e)
      case Ok((fs, rest)) => Ok((Record(tn, fs), rest))
  }

  /** Decodes the members after the |acc| already decoded, in declaration
      order; bounds look up siblings among the decoded ones. */
  function DecodeFields(g: Graph, host: ByteOrder, s: Struct, acc: seq<Value>, input: seq<byte>, fuel: nat): Result<(seq<Value>, seq<byte>)>
    requires |acc| <= |s.members|
    decreases fuel, 3, |s.members| - |acc|, 0
  {
    if |acc| == |s.members| then Ok((acc, input))
    else
      match Run(g, host, s, acc, DecodeMember(s.members[|acc|]), input, fuel)
      case Err(e) => Err(e)
      case Ok((v, rest)) => DecodeFields(g, host, s, acc + [v], rest, fuel)
  }

  function DecodeScalar(g: Graph, host: ByteOrder, rule: Rule, input: seq<byte>, fuel: nat): Result<(Value, seq<byte>)>
    decreases fuel, 2, 0, 0
  {
    if rule.NestedRule? then DecodeRecord(g, host, rule.typeName, input, fuel) else DecodeLeaf(rule, input, host)
  }

  /** Runs a decode plan; env holds the members decoded so far. */
  function Run(g: Graph, host: ByteOrder, s: Struct, env: seq<Value>, op: DecOp, input: seq<byte>, fuel: nat): Result<(Value, seq<byte>)>
    decreases fuel, 2, DecSize(op), 0
  {
    match op
    case Read(rule) => DecodeScalar(g, host, rule, input, fuel)
    case BulkRead(p, swap, count) =>
      (match ByteCountOf(s, env, count)
       case Err(e) => Err(e)
       case Ok(c) =>
         if p == Str || c % TypeSize(p) != 0 then Err(ShapeMismatch)
         else if |input| < c then Err(BufferUnderrun)
         else Ok((List(Words(input[..c], TypeSize(p), swap, host)), input[c..])))
    case DecLoop(_, b, body) =>
      match Extent(s, env, b)
      case Err(e) => Err(e)
      case Ok(n) =>
        match RunEach(g, host, s, env, body, n, input, fuel)
        case Err(e) => Err(e)
        case Ok((items, rest)) => Ok((List(items), rest))
  }

  /** n iterations of a decode loop body. */
  function RunEach(g: Graph, host: ByteOrder, s: Struct, env: seq<Value>, body: DecOp, n: nat, input: seq<byte>, fuel: nat): Result<(seq<Value>, seq<byte>)>
    decreases fuel, 2, DecSize(body), n
  {
    if n == 0 then Ok(([], input))
    else
      match Run(g, host, s, env, body, input, fuel)
      case Err(e) => Err(e)
      case Ok((head, rest)) =>
        match RunEach(g, host, s, env, body, n - 1, rest, fuel)
        case Err(e) => Err(e)
        case Ok((tail, rest')) => Ok(([head] + tail, rest'))
  }

  // ---------------------------------------------------------------------
  // Messages

  /** The value `getHash()` returns. */
  function MessageHash(g: Graph, tn: string): u64
    requires Closed(g) && tn in g
  {
    Fingerprint(g, FullName, tn, [])
  }

  /** Width in bytes of the fingerprint at the head of a message. */
  const HashSize: nat := 8

  lemma Pow256Eight()
    ensures Pow256(HashSize) == TWO64
  {
    assert Pow256(4) == 0x1_0000_0000;
  }

  /** `encode()`: the fingerprint through hton, then the body. */
  function EncodeMessage(g: Graph, host: ByteOrder, tn: string, v: Value): Result<seq<byte>>
    requires Closed(g) && tn in g
  {
    Pow256Eight();
    match EncodeRecord(g, host, tn, v)
    case Err(e) => Err(e)
    case Ok(body) => Ok(PutWord(MessageHash(g, tn), HashSize, true, host) + body)
  }

  /** `decode(data)`: the leading 8 bytes through ntoh must equal the
      fingerprint, or decoding stops with "Decode error" before the body is
      read. Bytes after the body are ignored. */
  function DecodeMessage(g: Graph, host: ByteOrder, tn: string, data: seq<byte>, fuel: nat): Result<Value>
    requires Closed(g) && tn in g
  {
    if |data| < HashSize then Err(BufferUnderrun)
    else if GetWord(data[..HashSize], true, host) != MessageHash(g, tn) then Err(HashMismatch)
    else
      match DecodeRecord(g, host, tn, data[HashSize..], fuel)
      case Err(e) => Err(e)
      case Ok((v, _)) => Ok(v)
  }
}
